=== FILE: README.md ===
# Modder core, modelled in Dafny

Modder is the command-line tool of AceTheGame that rewrites Android apps. It
lists the packages on a device, downloads an app, decompiles and recompiles
it with apktool, and patches it. The patch injects a memory scanner and
clears the `extractNativeLibs` flag, then re-exports and re-signs the app.
This project models two parts of it:

- **Injector.** It turns a class name into the relative path of its
  bytecode-text (`.smali`) file. It then finds that file under the first
  dex partition (`smali`, `smali_classes2`, ...) of a decompiled tree that
  holds it.
- **ModderMainCmd.** These are the commands that drive the collaborators
  (`Adb`, `ApkMod`, `Patcher`, `ApkSigner`):
  - the `package:` prefix stripping of `listApk`;
  - the output-directory rules of `decompile`, `recompile` and `Patch`;
  - the order of calls made by `Patch` and `download`.

Files:

- `java_text.dfy` (`JavaText`): the parts of `java.lang.String` the code
  uses, namely `startsWith`, `endsWith` and a one-character `replace`.
- `java_file.dfy` (`JavaFile`): Unix `java.io.File` path arithmetic.
  - The separator is the parameter `sep`.
  - `toString` is `Normalize`: runs of separators collapse, and a trailing
    separator is dropped except on the root.
  - `new File(parent, child)` is `Child`.
  - `getAbsolutePath` is `AbsolutePath`, resolved against `user.dir`, which
    is the parameter `cwd`.
  - `getName` is `Name`.
  - `Components` splits a path at its separators and drops empty pieces.
    A normal path is fixed by its components and by whether it is
    absolute (`NormalFormDetermined`). So the contracts that give both say
    where every separator goes.
  - `Inside(t, d)` says that, by its path text, `t` lies strictly inside
    directory `d`; it is correct for the root directory too.
    `java.io.File` keeps `.` and `..` components. So `Inside` agrees with
    containment on disk only when the last component of `d` is neither.
    `DotSourceHoldsCopy` and `DotInputHoldsOutput` cover the other case.
  - A `listFiles()` result is a snapshot: a sequence of `Entry` values in
    the order the platform returns them. `exists()` is membership in a set
    `fs` of paths.
- `injector.dfy` (`Injector`): the class-name to sub-path map, its inverse,
  and the first-match partition search. The search has a functional
  reference (`FirstHolder`, `SmaliPath`) and the loop as written
  (`GetSmaliPath`).
- `main_cmd.dfy` (`MainCmd`): `ListApk`, `Decompile`, `Recompile`, `Patch`
  and `Download`.
  - A collaborator is opaque. Each call it receives either returns or
    throws.
  - `Patch` ignores every return value, so only a throw stops it.
    `RunFailFast` gives the calls made up to and including the first one
    that throws.
  - `ListApk` and `Download` stop when an adb call reports a status other
    than `ok`.
  - `Download` reads the device through a `Device` value: the package
    listing, the apk paths of a package, and the result of each pull.

## Model

| member | source | states |
|---|---|---|
| JavaText.Replace | Modder/modder/src/main/java/modder/Injector.java:11 | every occurrence of the character is replaced and nothing else moves: same length, pointwise definition, no `from` left |
| JavaText.ReplaceUndo | Modder/modder/src/main/java/modder/Injector.java:11 | replacing `.` by a separator that did not occur, then back, gives the original string |
| Injector.SubPath | Modder/modder/src/main/java/modder/Injector.java:7-15 | character by character, each dot of the class name becomes a separator and every other character stays; `.smali` follows, so the sub-path is six characters longer, and no dot is left before the extension |
| Injector.ClassNameOf | Modder/modder/src/main/java/modder/Injector.java:7-15 | reading a sub-path back gives a class name exactly when the path ends in `.smali`; that name holds no separator |
| Injector.SubPathRoundTrip | Modder/modder/src/main/java/modder/Injector.java:7-15 | a class name without separator characters survives the trip to a sub-path and back |
| Injector.ClassNameRoundTrip | Modder/modder/src/main/java/modder/Injector.java:7-15 | a `.smali` path with no dot in its stem is the sub-path of the class name read back from it |
| Injector.FirstHolder | Modder/modder/src/main/java/modder/Injector.java:30-46 | nothing is found iff no partition entry has the probed path; when something is found, it is the first entry that has it |
| Injector.SmaliPath | Modder/modder/src/main/java/modder/Injector.java:30-48 | the answer is `""` iff no partition holds the class; otherwise it is the probed path under the first partition that holds it |
| Injector.GetSmaliPath | Modder/modder/src/main/java/modder/Injector.java:17-49 | the loop, which skips non-directories and names without the `smali` prefix and returns on the first existing file, computes `SmaliPath`; a `null` listing makes it throw |
| Injector.FirstHolderStep | Modder/modder/src/main/java/modder/Injector.java:30-46 | one iteration of the scan: the answer for a suffix is its head if that holds, else the answer for the rest |
| Injector.FirstHolderAppend | Modder/modder/src/main/java/modder/Injector.java:30-46 | searching two listings end to end gives the first one's answer if it has one, else the second's |
| Injector.NonPartitionIrrelevant | Modder/modder/src/main/java/modder/Injector.java:32-38 | inserting a non-directory, or a directory not named `smali...`, anywhere in the listing does not change the answer |
| Injector.Partitions | Modder/modder/src/main/java/modder/Injector.java:32-38 | the entries kept are exactly the directories whose name starts with `smali` |
| Injector.OnlyPartitionsMatter | Modder/modder/src/main/java/modder/Injector.java:32-38 | searching only the partitions, in listing order, gives the same answer as searching the whole listing |
| Injector.UniqueHolderFound | Modder/modder/src/main/java/modder/Injector.java:30-46 | when exactly one partition holds the class, the search finds that partition wherever it sits in the listing, so its probed path is the answer |
| Injector.CandidateIsPlainJoin | Modder/modder/src/main/java/modder/Injector.java:40-41 | for a well-formed class name and an ordinary absolute partition path, the probed path is the partition path, one separator and the sub-path |
| JavaFile.Normalize | Modder/modder/src/main/java/modder/ModderMainCmd.java:89-90 | the result is normal, has the same components as the input (so each separator run becomes one separator), is empty iff the input is, is absolute iff the input is, and equals an input that is already normal |
| JavaFile.CollapseFacts | Modder/modder/src/main/java/modder/ModderMainCmd.java:89-90 | collapsing leaves no doubled separator, keeps the components, loses no other character, and changes nothing without a doubled separator |
| JavaFile.CollapseKeepsComponents | Modder/modder/src/main/java/modder/ModderMainCmd.java:89-90 | collapsing separator runs keeps the components: no separator run disappears and none appears |
| JavaFile.ComponentsAppend | Modder/modder/src/main/java/modder/ModderMainCmd.java:89-90 | cutting a path at a separator cuts its components there |
| JavaFile.NonSepIsConcat | Modder/modder/src/main/java/modder/ModderMainCmd.java:89-90 | a path's non-separator characters are its components run together, so every `NonSep` equation follows from the matching `Components` one |
| JavaFile.NormalFormDetermined | Modder/modder/src/main/java/modder/ModderMainCmd.java:89-90 | two normal paths with the same components, both absolute or both relative, are equal |
| JavaFile.NormalizeIdempotent | Modder/modder/src/main/java/modder/ModderMainCmd.java:89-90 | normalising twice is normalising once |
| JavaFile.NormalizeDropsTrailingSep | Modder/modder/src/main/java/modder/ModderMainCmd.java:64-80 | a non-empty path with a trailing separator has the same normal form as without it |
| JavaFile.ResolveComponents | Modder/modder/src/main/java/modder/Injector.java:41 | resolving puts exactly one separator between the parent's components and the child's, whatever the two end and start with |
| JavaFile.ResolveFacts | Modder/modder/src/main/java/modder/Injector.java:41 | resolving a child against a parent keeps the parent in front and the child at the end; the components are the parent's followed by the child's; the result is normal unless the child is the bare root |
| JavaFile.Child | Modder/modder/src/main/java/modder/ModderMainCmd.java:121 | `new File(parent, child)` has the parent's components followed by the child's, is normal unless the child is the root, and is absolute when the parent is; with `NormalFormDetermined` this fixes the path |
| JavaFile.AbsolutePath | Modder/modder/src/main/java/modder/ModderMainCmd.java:118 | the result is absolute and normal; an absolute path is only normalised; a relative one has the working directory's components followed by its own |
| JavaFile.NameFacts | Modder/modder/src/main/java/modder/ModderMainCmd.java:70-78 | the name holds no separator, ends the path, and is preceded by a separator unless it is the whole path |
| JavaFile.ParentDirPrefix | Modder/modder/src/main/java/modder/ModderMainCmd.java:117-118 | for a normal absolute path, the directory holding its last component, followed by a separator, is the path's parent part |
| JavaFile.NameAppend | Modder/modder/src/main/java/modder/ModderMainCmd.java:70-78 | appending separator-free text extends the last component by that text and keeps the parent directory |
| MainCmd.StripPackagePrefix | Modder/modder/src/main/java/modder/ModderMainCmd.java:40-42 | a line starting with `package:` loses exactly that prefix; any other line is unchanged |
| MainCmd.StripUndoesPrefix | Modder/modder/src/main/java/modder/ModderMainCmd.java:35-42 | stripping `package:` + name gives the name back, even when the name itself starts with `package:` |
| MainCmd.ListApk | Modder/modder/src/main/java/modder/ModderMainCmd.java:27-47 | on an adb error the output lines are shown and nothing is listed; otherwise row `i` is `(i, line i stripped)` for every line, and the count is the number of lines |
| MainCmd.Decompile | Modder/modder/src/main/java/modder/ModderMainCmd.java:82-91 | apktool gets the path as typed; the output directory is exactly the path's normal form followed by the extension `ApkMod.DECOMPILED_DIR_EXT` |
| MainCmd.Recompile | Modder/modder/src/main/java/modder/ModderMainCmd.java:94-105 | apktool gets the path as typed; the output directory is exactly the path's normal form followed by the extension `ApkMod.RECOMPILED_DIR_EXT` |
| MainCmd.OutputDirIsSibling | Modder/modder/src/main/java/modder/ModderMainCmd.java:64-80 | the output directory has the same parent directory as the input, and its name is the input's name plus the extension |
| MainCmd.DotInputHoldsOutput | Modder/modder/src/main/java/modder/ModderMainCmd.java:89-90 | for an absolute input whose last component is `.` or `..`, the output directory lies inside the directory holding that component, which is the input or inside it |
| MainCmd.DecompileDotIsBareName | Modder/modder/src/main/java/modder/ModderMainCmd.java:89-90 | `decompile .` writes to the bare name `.` plus the extension, an entry of the working directory that `.` names |
| MainCmd.DecompileIgnoresTrailingSep | Modder/modder/src/main/java/modder/ModderMainCmd.java:64-80 | a path typed with a trailing separator gets the same output directory as without it |
| MainCmd.OutputDirInsideInputOnlyAtRoot | Modder/modder/src/main/java/modder/ModderMainCmd.java:70-90 | by path text, the output directory lies inside the input directory exactly when the input is the root directory |
| MainCmd.RunFailFast | Modder/modder/src/main/java/modder/ModderMainCmd.java:112-139 | the calls made are a prefix of the plan; every call but the last succeeded; a failed run ends with the failing call; a run without a failure made every call |
| MainCmd.SignSteps | Modder/modder/src/main/java/modder/ModderMainCmd.java:135-139 | only signing calls, one for a path exactly when a regular file of the listing has that path |
| MainCmd.Patch | Modder/modder/src/main/java/modder/ModderMainCmd.java:108-143 | the apk is reported as exported iff the copy's listing is not `null` and no call made failed; an exporting run reports the base apk inside the copy and made every call: check, copy, check the apk, open the patcher, add the memory scanner, fix native libraries, export over the apk, then sign each regular file of the listing; a `null` listing with no failure makes exactly the seven calls before the signing; the first call checks the source directory in its normal form (`new File(src)`) |
| MainCmd.EmptyListingSignsNothing | Modder/modder/src/main/java/modder/ModderMainCmd.java:135-138 | with no entries to walk over, a run of the plan makes no signing call |
| MainCmd.PatchedDirIsSeparate | Modder/modder/src/main/java/modder/ModderMainCmd.java:117-119 | the working copy is the absolute source path plus `.patched`; it is normal and absolute; by path text, the source is not inside it, and it is inside the source exactly when the source is the root |
| MainCmd.DotSourceHoldsCopy | Modder/modder/src/main/java/modder/ModderMainCmd.java:115-119 | for a source whose last component is `.` or `..` (`Patch .`), the copy lies inside the directory holding that component, which is the source or inside it, so on disk the copy is written inside the source |
| MainCmd.BaseApkInsideCopy | Modder/modder/src/main/java/modder/ModderMainCmd.java:121 | the base apk of a plain file name lies inside the working copy |
| MainCmd.PlanTouchesOnlyCopy | Modder/modder/src/main/java/modder/ModderMainCmd.java:119-139 | past the check and the copy, every call targets a path inside the copy; by path text, no call targets the source directory, or anything inside it unless the source is the root |
| MainCmd.PatchTouchesOnlyCopy | Modder/modder/src/main/java/modder/ModderMainCmd.java:115-139 | the same for `Patch` itself: after the copy, every call works on a path inside the working copy; by path text, none names the source directory, or anything inside it unless the source is the root |
| MainCmd.PrecedesInRun | Modder/modder/src/main/java/modder/ModderMainCmd.java:119-139 | a run stops early but never reorders: an order the plan has, the calls made keep |
| MainCmd.PlanPatchOrder | Modder/modder/src/main/java/modder/ModderMainCmd.java:119-132 | the copy precedes the memory-scanner patch, which precedes the native-library fix, which precedes the export |
| MainCmd.PlanSignsAfterExport | Modder/modder/src/main/java/modder/ModderMainCmd.java:131-139 | no file is signed before the export |
| MainCmd.PatchOrder | Modder/modder/src/main/java/modder/ModderMainCmd.java:124-139 | in every `Patch` run: memory scanner, then native-library fix, then export, then signing; a run that reports the export made all three patch calls on the copy's base apk |
| MainCmd.PlanSignsRegularFiles | Modder/modder/src/main/java/modder/ModderMainCmd.java:135-139 | a complete run signs exactly the regular files of the listing |
| MainCmd.PatchSignsRegularFiles | Modder/modder/src/main/java/modder/ModderMainCmd.java:135-139 | a `Patch` run that exports has signed exactly the regular files of the working copy |
| MainCmd.FetchFrom | Modder/modder/src/main/java/modder/ModderMainCmd.java:195-206 | the pulls go in path order into the package's directory; a pull happens only when all earlier ones succeeded; either every pull succeeded or the run stops at the first failing one; the lines each successful pull printed are kept, in order |
| MainCmd.Download | Modder/modder/src/main/java/modder/ModderMainCmd.java:172-207 | corrected: listing failure, package not shown by `listApk`, path-query failure and pull failure each stop the command with the matching adb lines shown; otherwise every apk path was pulled; in both pull outcomes, the output of every successful pull is shown, in order |
| MainCmd.DownloadAsWritten | Modder/modder/src/main/java/modder/ModderMainCmd.java:172-207 | as written: listing first; "not installed" iff the raw listing lacks the exact string, and then nothing else is called; a listing or path-query failure stops with those lines shown; pulls go in path order and stop at the first failure, which shows the path query's lines; each successful pull's output is shown, in order |
| MainCmd.DownloadAbortsWithoutFetch | Modder/modder/src/main/java/modder/ModderMainCmd.java:175-191 | a download stopped before the pulls has pulled nothing |
| MainCmd.DownloadAsWrittenRejectsListedName | Modder/modder/src/main/java/modder/ModderMainCmd.java:181-186 | as written, when every listing line carries `package:`, every plain package name is reported as not installed |
| MainCmd.DownloadFindsListedPackage | Modder/modder/src/main/java/modder/ModderMainCmd.java:181-187 | corrected, a package whose line `package:<name>` is listed is accepted and its apk paths are queried |
| MainCmd.DownloadListedPackageExample | Modder/modder/src/main/java/modder/ModderMainCmd.java:181 | for the listing `["package:com.example.app"]`, the code as written says "not installed"; the corrected command downloads it |
| MainCmd.DownloadAsWrittenShowsQueryOutput | Modder/modder/src/main/java/modder/ModderMainCmd.java:199-201 | for a pull failing with `adb: error: device offline`, the code as written shows the apk path list; the corrected command shows the adb error |

## Left out

- `ApkInfo` (ModderMainCmd.java:49-62) and `Install` (214-225): each
  passes one collaborator's output straight to the console, and there is
  no logic of its own to model.
- The bodies of `Adb`, `Aapt`, `ApkMod`, `Patcher`, `ApkSigner`, `Assert`
  and `FileUtils.copyDirectory`. These files are not part of this model.
  - Each call is a `Step` that either returns or throws.
  - `Patcher.BASE_APK_FILE_NAME` is the parameter `baseName`.
  - Opening the `Patcher` is its own step, because the constructor may do
    work.
  - A failure inside a collaborator that returns normally is not
    observable.
- The deletion and re-creation of the download directory in `Download`
  (155-170). These are file-system side effects whose errors are only
  printed and never stop the command.
- Console messages of the command's own, such as the progress lines
  of `Download`. The adb lines a command shows are modelled: those shown
  when it stops on an error, and each successful pull's output. picocli
  parsing, `Util.java` and `make_release.py` are not part of the core.
- Windows path rules (drive letters, UNC prefixes). Only the Unix
  `java.io.File` normalisation is modelled, with the separator as a
  parameter.
- The file system is a snapshot.
  - `exists()` is membership in `fs`.
  - A `listFiles()` result is a sequence of entries whose `absPath` is
    already absolute.
  - A directory changing during a run is not modelled.
- Partitions are searched in the order `listFiles()` returns them; they
  are not sorted first.
- A probed class file counts when `exists()` holds, whether or not it is a
  regular file.
- `Patch` ignores its collaborators' return values, so only a thrown
  exception stops it, and no result is reported per patch.
- The values of `ApkMod.DECOMPILED_DIR_EXT` and `ApkMod.RECOMPILED_DIR_EXT`
  are not in the model, so `Decompile` and `Recompile` take the extension as
  a parameter. The class's own `DECOMPILED_DIR_EXT` and `RECOMPILED_DIR_EXT`
  fields (lines 17-18) are never used.
- MainCmd.PatchTouchesOnlyCopy: assumes `listFiles()` of the working copy
  lists entries inside the working copy. When the source is the root
  directory, the copy `/.patched` lies inside it, so "nothing inside the
  source" is promised only for other sources. That promise is about path
  text. For a source whose last component is `.` or `..`, as in `Patch .`,
  the copy is written inside the source directory on disk
  (`DotSourceHoldsCopy`).
- MainCmd.PlanTouchesOnlyCopy: "nothing inside the source" is promised
  only when the source is not the root directory, and only by path text,
  for the same reasons.
- MainCmd.PatchedDirIsSeparate: "not inside the source" is by path text.
  A source ending in `.` or `..` holds the copy on disk
  (`DotSourceHoldsCopy`).
- MainCmd.OutputDirInsideInputOnlyAtRoot: "not inside the input" is by
  path text. An input ending in `.` or `..` holds the output on disk
  (`DotInputHoldsOutput`, `DecompileDotIsBareName`).
- Symbolic links: containment is judged by path text, never through a
  link.
- MainCmd.Patch: a `null` listing and a failing call both leave `exported`
  empty; the report does not say which of the two happened.
- MainCmd.Patch: assumes `user.dir` is an absolute, normal path, as the JVM
  sets it.

## Findings

| source | as written | input that shows it | evidently intended | confidence | as-written member | corrected member |
|---|---|---|---|---|---|---|
| Modder/modder/src/main/java/modder/ModderMainCmd.java:181 | `out.strings.contains(package_name)` compares the name with the raw `adb` listing lines, which carry the `package:` prefix (as the comment at lines 35-38 says) | listing `["package:com.example.app"]`, name `com.example.app`: reported as not installed | test the name against the listing with the `package:` prefix stripped, as `listApk` shows it | medium, not executed | MainCmd.DownloadAsWrittenRejectsListedName | MainCmd.DownloadFindsListedPackage |
| Modder/modder/src/main/java/modder/ModderMainCmd.java:199-201 | on a failed pull it calls `ShowAdbShellError(out)`, where `out` is the apk path query, not the pull's `downloadOut` | one path `/data/app/base.apk` whose pull fails with `adb: error: device offline`: the path is shown instead of the error | show `downloadOut`, the failed pull's own lines | high, not executed | MainCmd.DownloadAsWrittenShowsQueryOutput | MainCmd.Download |

=== FILE: injector.dfy ===
/**
  Locating the bytecode-text (smali) file of a class inside a tree decoded
  by apktool. The tree's root holds one directory per dex partition
  (`smali`, `smali_classes2`, ...); the class file sits under the first of
  them that has it.
 */
module Injector {
  import opened JavaText
  import opened JavaFile

  /** The extension apktool gives bytecode-text files. */
  const SmaliExt: string := ".smali"

  /** Every partition directory's name starts with this. */
  const PartitionPrefix: string := "smali"

  /** The path of a class's bytecode-text file relative to a partition:
      `com.example.Main` becomes `com/example/Main.smali`. */
  function SubPath(className: string, sep: char): (r: string)
    ensures |r| == |className| + |SmaliExt|
    ensures forall i :: 0 <= i < |className| ==> r[i] == (if className[i] == '.' then sep else className[i])
    ensures r[|className|..] == SmaliExt
    ensures EndsWith(r, SmaliExt)
    ensures sep != '.' ==> '.' !in r[..|className|]
  {
    var stem := Replace(className, '.', sep);
    assert (stem + SmaliExt)[..|className|] == stem;
    stem + SmaliExt
  }

  /** The inverse reading of a relative path: drop the `.smali` extension and
      turn separators back into dots; `None` when the extension is missing. */
  function ClassNameOf(subPath: string, sep: char): (r: Option<string>)
    ensures r.Some? <==> EndsWith(subPath, SmaliExt)
    ensures r.Some? ==> |r.value| + |SmaliExt| == |subPath|
    ensures r.Some? && sep != '.' ==> sep !in r.value
  {
    if EndsWith(subPath, SmaliExt) then
      Some(Replace(subPath[..|subPath| - |SmaliExt|], sep, '.'))
    else None
  }

  /** A class name without separator characters survives the trip to a
      relative path and back. */
  lemma {:induction false} SubPathRoundTrip(className: string, sep: char)
    requires sep !in className
    ensures ClassNameOf(SubPath(className, sep), sep) == Some(className)
  {
    var p := SubPath(className, sep);
    assert p[..|p| - |SmaliExt|] == Replace(className, '.', sep);
    ReplaceUndo(className, '.', sep);
  }

  /** Conversely, a `.smali` path whose stem has no dot is the sub-path of
      the class name read back from it. */
  lemma {:induction false} ClassNameRoundTrip(subPath: string, sep: char)
    requires EndsWith(subPath, SmaliExt)
    requires '.' !in subPath[..|subPath| - |SmaliExt|]
    ensures ClassNameOf(subPath, sep).Some?
    ensures SubPath(ClassNameOf(subPath, sep).value, sep) == subPath
  {
    var stem := subPath[..|subPath| - |SmaliExt|];
    ReplaceUndo(stem, sep, '.');
    assert stem + SmaliExt == subPath;
  }

  /** A listing entry apktool could have written a partition into: a
      directory whose name starts with `smali`. */
  predicate IsPartition(e: Entry) {
    e.kind == Directory && StartsWith(e.name, PartitionPrefix)
  }

  /** The path the search probes under each partition: the class's
      sub-path resolved against the partition's absolute path, i.e.
      `new File(partition.getAbsolutePath(), rel).getAbsolutePath()` (the
      parent is absolute, so `getAbsolutePath` adds nothing). */
  function CandidateOf(className: string, sep: char): Entry -> string {
    (e: Entry) => Child(e.absPath, SubPath(className, sep), sep)
  }

  /** Entry `e` is a partition under which the snapshot `fs` (the set of
      paths for which `exists()` holds) has the probed path. */
  predicate Holds(e: Entry, cand: Entry -> string, fs: set<string>) {
    IsPartition(e) && cand(e) in fs
  }

  /** Index `i` is the first entry of the listing that holds the class. */
  predicate IsFirstHolder(listing: seq<Entry>, i: int, cand: Entry -> string, fs: set<string>) {
    && 0 <= i < |listing|
    && Holds(listing[i], cand, fs)
    && forall j :: 0 <= j < i ==> !Holds(listing[j], cand, fs)
  }

  /** The reference search: the listing is scanned front to back and the
      first partition holding the probed path is the answer. */
  function FirstHolder(listing: seq<Entry>, cand: Entry -> string, fs: set<string>): (r: Option<Entry>)
    ensures r.None? <==> forall i :: 0 <= i < |listing| ==> !Holds(listing[i], cand, fs)
    ensures r.Some? ==> exists i :: IsFirstHolder(listing, i, cand, fs) && r.value == listing[i]
  {
    if listing == [] then None
    else if Holds(listing[0], cand, fs) then
      assert IsFirstHolder(listing, 0, cand, fs);
      Some(listing[0])
    else
      var r := FirstHolder(listing[1..], cand, fs);
      assert forall i :: 0 < i < |listing| ==> listing[i] == listing[1..][i - 1];
      assert r.Some? ==> exists i :: IsFirstHolder(listing, i, cand, fs) && r.value == listing[i] by {
        if r.Some? {
          var k :| IsFirstHolder(listing[1..], k, cand, fs) && r.value == listing[1..][k];
          assert IsFirstHolder(listing, k + 1, cand, fs);
        }
      }
      r
  }

  /** The answer of `GetSmaliPathFromLaunchableActivity` for a listing of
      the tree root: the probed path under the first partition that has the
      class, `""` when none has it. */
  function SmaliPath(className: string, listing: seq<Entry>, fs: set<string>, sep: char): (r: string)
    ensures r == "" <==> forall i :: 0 <= i < |listing| ==> !Holds(listing[i], CandidateOf(className, sep), fs)
    ensures r != "" ==> exists i ::
      IsFirstHolder(listing, i, CandidateOf(className, sep), fs) && r == CandidateOf(className, sep)(listing[i])
  {
    match FirstHolder(listing, CandidateOf(className, sep), fs)
    case None => ""
    case Some(e) => CandidateOf(className, sep)(e)
  }

  /** `GetSmaliPathFromLaunchableActivity`. `dir` is what `listFiles()`
      returned for the tree root: `None` is Java's `null` (the root is
      missing or not a directory), which the Java code dereferences
      unchecked, so the call throws; `r` is then `None`. Otherwise `r` holds
      the path returned. */
  method GetSmaliPath(className: string, dir: Option<seq<Entry>>, fs: set<string>, sep: char)
    returns (r: Option<string>)
    ensures r.None? <==> dir.None?
    ensures dir.Some? ==> r == Some(SmaliPath(className, dir.value, fs, sep))
  {
    if dir.None? {
      return None;
    }
    var files := dir.value;
    var smaliFileOf := CandidateOf(className, sep);
    var i := 0;
    while i < |files|
      invariant 0 <= i <= |files|
      invariant FirstHolder(files, smaliFileOf, fs) == FirstHolder(files[i..], smaliFileOf, fs)
    {
      FirstHolderStep(files, i, smaliFileOf, fs);
      if files[i].kind != Directory {
        i := i + 1;
        continue;
      }
      var dirName := files[i].name;
      if !StartsWith(dirName, PartitionPrefix) {
        i := i + 1;
        continue;
      }
      var smaliFile := smaliFileOf(files[i]);
      if smaliFile in fs {
        return Some(smaliFile);
      }
      i := i + 1;
    }
    assert files[i..] == [];
    return Some("");
  }

  /** One step of the scan: the answer for a suffix of the listing is its
      first entry if that one holds, else the answer for the rest. */
  lemma FirstHolderStep(files: seq<Entry>, i: nat, cand: Entry -> string, fs: set<string>)
    requires i < |files|
    ensures FirstHolder(files[i..], cand, fs)
      == if Holds(files[i], cand, fs) then Some(files[i]) else FirstHolder(files[i + 1..], cand, fs)
  {
    assert files[i..][0] == files[i];
    assert files[i..][1..] == files[i + 1..];
  }

  /** The search over two listings laid end to end: the first one's answer
      if it has one, otherwise the second one's. */
  lemma {:induction false} FirstHolderAppend(a: seq<Entry>, b: seq<Entry>, cand: Entry -> string, fs: set<string>)
    ensures FirstHolder(a + b, cand, fs)
      == if FirstHolder(a, cand, fs).Some? then FirstHolder(a, cand, fs) else FirstHolder(b, cand, fs)
  {
    if a == [] {
      assert a + b == b;
    } else {
      assert (a + b)[0] == a[0];
      assert (a + b)[1..] == a[1..] + b;
      FirstHolderAppend(a[1..], b, cand, fs);
    }
  }

  /** Inserting an entry that is not a partition (a file, or a directory not
      named `smali...`) anywhere in the listing leaves the answer alone. */
  lemma NonPartitionIrrelevant(className: string, a: seq<Entry>, e: Entry, b: seq<Entry>, fs: set<string>, sep: char)
    requires !IsPartition(e)
    ensures SmaliPath(className, a + [e] + b, fs, sep) == SmaliPath(className, a + b, fs, sep)
  {
    var cand := CandidateOf(className, sep);
    FirstHolderAppend(a + [e], b, cand, fs);
    FirstHolderAppend(a, [e], cand, fs);
    FirstHolderAppend(a, b, cand, fs);
    assert FirstHolder([e], cand, fs).None?;
  }

  /** The partitions of a listing, in listing order. */
  function Partitions(listing: seq<Entry>): (r: seq<Entry>)
    ensures forall e :: e in r <==> e in listing && IsPartition(e)
  {
    if listing == [] then []
    else (if IsPartition(listing[0]) then [listing[0]] else []) + Partitions(listing[1..])
  }

  lemma {:induction false} PartitionsKeepAnswer(listing: seq<Entry>, cand: Entry -> string, fs: set<string>)
    ensures FirstHolder(Partitions(listing), cand, fs) == FirstHolder(listing, cand, fs)
  {
    if listing != [] {
      var head := if IsPartition(listing[0]) then [listing[0]] else [];
      PartitionsKeepAnswer(listing[1..], cand, fs);
      FirstHolderAppend(head, Partitions(listing[1..]), cand, fs);
      FirstHolderAppend([listing[0]], listing[1..], cand, fs);
      assert listing == [listing[0]] + listing[1..];
    }
  }

  /** Only the partitions, in their listing order, decide the answer. */
  lemma OnlyPartitionsMatter(className: string, listing: seq<Entry>, fs: set<string>, sep: char)
    ensures SmaliPath(className, Partitions(listing), fs, sep) == SmaliPath(className, listing, fs, sep)
  {
    PartitionsKeepAnswer(listing, CandidateOf(className, sep), fs);
  }

  /** When exactly one partition holds the class, it is the one found,
      wherever it sits in the listing; the answer of `SmaliPath` is then its
      probed path. */
  lemma UniqueHolderFound(listing: seq<Entry>, k: nat, cand: Entry -> string, fs: set<string>)
    requires k < |listing| && Holds(listing[k], cand, fs)
    requires forall i :: 0 <= i < |listing| && i != k ==> !Holds(listing[i], cand, fs)
    ensures FirstHolder(listing, cand, fs) == Some(listing[k])
  {
  }

  /** A class name made of non-empty dot-separated segments and free of
      separator characters, on a platform whose separator is not one of the
      characters of `.smali` (`/` and `\` are not). */
  predicate WellFormedClassName(className: string, sep: char) {
    && |className| > 0
    && sep !in SmaliExt
    && sep !in className
    && className[0] != '.'
    && forall i :: 0 < i < |className| ==> !(className[i - 1] == '.' && className[i] == '.')
  }

  /** For a well-formed class name and a partition at an ordinary absolute
      path, the candidate is the partition path, one separator and the
      sub-path, exactly. */
  lemma CandidateIsPlainJoin(e: Entry, className: string, sep: char)
    requires WellFormedClassName(className, sep)
    requires IsNormal(e.absPath, sep) && IsAbsolute(e.absPath, sep) && e.absPath != [sep]
    ensures CandidateOf(className, sep)(e) == e.absPath + [sep] + SubPath(className, sep)
  {
    var rel := SubPath(className, sep);
    var stem := Replace(className, '.', sep);
    assert rel == stem + SmaliExt;
    assert IsNormal(rel, sep) by {
      forall i | 0 < i < |rel|
        ensures !(rel[i - 1] == sep && rel[i] == sep)
      {
        if i < |className| {
          assert rel[i - 1] == stem[i - 1] && rel[i] == stem[i];
          assert className[i - 1] in className && className[i] in className;
        } else if i == |className| {
          assert rel[i] == '.';
        } else {
          assert rel[i] == SmaliExt[i - |className|];
          assert rel[i] in SmaliExt;
        }
      }
      assert rel[|rel| - 1] == SmaliExt[|SmaliExt| - 1] && rel[|rel| - 1] in SmaliExt;
    }
    assert rel[0] == stem[0] && className[0] in className;
  }
}

=== FILE: java_file.dfy ===
/**
  The path arithmetic of `java.io.File` on a Unix-like platform, with the
  separator character `sep` as a parameter (it is `File.separatorChar`).
  A directory listing (`File.listFiles`) is a snapshot: a sequence of
  entries in the order the platform returned them.
 */
module JavaFile {
  import opened JavaText

  /** What `isDirectory()` / `isFile()` report; `Other` is neither
      (a device node, a dangling link, ...). */
  datatype Kind = Directory | RegularFile | Other

  /** One element of `File.listFiles()`: its `getName()`, its kind and its
      `getAbsolutePath()`. */
  datatype Entry = Entry(name: string, kind: Kind, absPath: string)

  /** Positions `i - 1` and `i` of `s` both hold the separator. */
  predicate DoubledAt(s: string, i: int, sep: char)
    requires 0 < i < |s|
  {
    s[i - 1] == sep && s[i] == sep
  }

  predicate NoRepeatedSep(s: string, sep: char) {
    forall i :: 0 < i < |s| ==> !DoubledAt(s, i, sep)
  }

  /** The shape `java.io.File` keeps every path in: no doubled separator and
      no trailing separator, except for the root path itself. */
  predicate IsNormal(s: string, sep: char) {
    NoRepeatedSep(s, sep) && (|s| > 1 ==> s[|s| - 1] != sep)
  }

  predicate IsAbsolute(s: string, sep: char) {
    |s| > 0 && s[0] == sep
  }

  /** The non-separator characters of `s`, in order: the part of a path that
      normalisation and joining must never lose, add or reorder. */
  function NonSep(s: string, sep: char): (r: string)
    ensures sep !in r
    ensures |r| <= |s|
  {
    if s == [] then []
    else (if s[0] == sep then [] else [s[0]]) + NonSep(s[1..], sep)
  }

  lemma {:induction false} NonSepAppend(a: string, b: string, sep: char)
    ensures NonSep(a + b, sep) == NonSep(a, sep) + NonSep(b, sep)
  {
    if a == [] {
      assert a + b == b;
    } else {
      assert (a + b)[0] == a[0];
      assert (a + b)[1..] == a[1..] + b;
      NonSepAppend(a[1..], b, sep);
    }
  }

  lemma NoRepeatedSepAppend(a: string, b: string, sep: char)
    requires NoRepeatedSep(a, sep) && NoRepeatedSep(b, sep)
    requires |a| > 0 && |b| > 0 ==> !(a[|a| - 1] == sep && b[0] == sep)
    ensures NoRepeatedSep(a + b, sep)
  {
    var s := a + b;
    forall i | 0 < i < |s|
      ensures !DoubledAt(s, i, sep)
    {
      if i < |a| {
        assert s[i - 1] == a[i - 1] && s[i] == a[i];
        assert !DoubledAt(a, i, sep);
      } else if i == |a| {
        assert s[i - 1] == a[|a| - 1] && s[i] == b[0];
      } else {
        assert s[i - 1] == b[i - 1 - |a|] && s[i] == b[i - |a|];
        assert !DoubledAt(b, i - |a|, sep);
      }
    }
  }

  /** The non-separator characters of a string with one more character in
      front. */
  lemma NonSepCons(c: char, t: string, sep: char)
    ensures NonSep([c] + t, sep) == (if c == sep then [] else [c]) + NonSep(t, sep)
  {
    assert ([c] + t)[1..] == t;
  }

  /** Dropping the first character keeps separator runs single. */
  lemma NoRepeatedSepTail(s: string, sep: char)
    requires |s| > 0 && NoRepeatedSep(s, sep)
    ensures NoRepeatedSep(s[1..], sep)
  {
    forall i | 0 < i < |s[1..]|
      ensures !DoubledAt(s[1..], i, sep)
    {
      assert s[1..][i - 1] == s[i] && s[1..][i] == s[i + 1];
      assert !DoubledAt(s, i + 1, sep);
    }
  }

  /** `cs` with `c` put in front of its first component (or `[[c]]`). */
  function PrependChar(c: char, cs: seq<string>): seq<string> {
    if cs == [] then [[c]] else [[c] + cs[0]] + cs[1..]
  }

  /** The components of a path: its maximal runs of non-separator
      characters, in order. Leading, trailing and repeated separators make
      no empty components, so two paths that differ only in such separators
      have the same components. */
  function Components(s: string, sep: char): seq<string> {
    if s == [] then []
    else if s[0] == sep then Components(s[1..], sep)
    else if |s| == 1 || s[1] == sep then [[s[0]]] + Components(s[1..], sep)
    else PrependChar(s[0], Components(s[1..], sep))
  }

  /** A separator in front adds no component. */
  lemma SepCons(t: string, sep: char)
    ensures Components([sep] + t, sep) == Components(t, sep)
  {
    assert ([sep] + t)[1..] == t;
  }

  /** A non-separator in front of a separator is a component of its own. */
  lemma NewComponentCons(c: char, t: string, sep: char)
    requires c != sep && t != [] && t[0] == sep
    ensures Components([c] + t, sep) == [[c]] + Components(t, sep)
  {
    assert ([c] + t)[1..] == t;
  }

  /** A non-separator in front of a non-separator joins its component. */
  lemma SameComponentCons(c: char, t: string, sep: char)
    requires c != sep && t != [] && t[0] != sep
    ensures Components([c] + t, sep) == PrependChar(c, Components(t, sep))
  {
    assert ([c] + t)[1..] == t;
  }

  lemma ComponentsOfSep(sep: char)
    ensures Components([sep], sep) == []
  {
    assert [sep][1..] == [];
  }

  lemma PrependCharAppend(c: char, x: seq<string>, y: seq<string>)
    requires x != []
    ensures PrependChar(c, x + y) == PrependChar(c, x) + y
  {
    assert (x + y)[0] == x[0];
    assert (x + y)[1..] == x[1..] + y;
  }

  /** A path that starts with a non-separator has a first component. */
  lemma ComponentsNonEmpty(s: string, sep: char)
    requires s != [] && s[0] != sep
    ensures Components(s, sep) != []
  {
  }

  /** The components written one after another, with nothing between. */
  function Concat(cs: seq<string>): string {
    if cs == [] then [] else cs[0] + Concat(cs[1..])
  }

  lemma ConcatPrependChar(c: char, cs: seq<string>)
    ensures Concat(PrependChar(c, cs)) == [c] + Concat(cs)
  {
    if cs == [] {
      assert Concat([[c]]) == [c] + Concat([]);
    } else {
      var x := PrependChar(c, cs);
      assert x[0] == [c] + cs[0] && x[1..] == cs[1..];
    }
  }

  /** The non-separator characters of a path are its components run
      together, so two paths with the same components also have the same
      `NonSep`: every `NonSep` equation below follows from the matching
      `Components` one. */
  lemma {:induction false} NonSepIsConcat(s: string, sep: char)
    ensures NonSep(s, sep) == Concat(Components(s, sep))
  {
    if s == [] {
    } else if s[0] == sep {
      NonSepIsConcat(s[1..], sep);
    } else if |s| == 1 || s[1] == sep {
      NonSepIsConcat(s[1..], sep);
      var x := [[s[0]]] + Components(s[1..], sep);
      assert x[0] == [s[0]] && x[1..] == Components(s[1..], sep);
    } else {
      NonSepIsConcat(s[1..], sep);
      ConcatPrependChar(s[0], Components(s[1..], sep));
    }
  }

  /** Equal components give equal `NonSep`. */
  lemma ComponentsDetermineNonSep(a: string, b: string, sep: char)
    requires Components(a, sep) == Components(b, sep)
    ensures NonSep(a, sep) == NonSep(b, sep)
  {
    NonSepIsConcat(a, sep);
    NonSepIsConcat(b, sep);
  }

  /** `ComponentsAppend` for a first half of one character. */
  lemma ComponentsAppendSingle(c: char, b: string, sep: char)
    requires c == sep || b == [] || b[0] == sep
    ensures Components([c] + b, sep) == Components([c], sep) + Components(b, sep)
  {
    assert [c] + [] == [c];
    if c == sep {
      SepCons(b, sep);
      SepCons([], sep);
    } else if b == [] {
      assert [c] + b == [c];
    } else {
      NewComponentCons(c, b, sep);
      assert Components([c], sep) == [[c]] + Components([], sep);
    }
  }

  /** One more character in front of both a path and its first half keeps
      the components cut where they were. */
  lemma ComponentsAppendStep(c: char, t: string, b: string, sep: char)
    requires t != []
    requires Components(t + b, sep) == Components(t, sep) + Components(b, sep)
    ensures Components([c] + (t + b), sep) == Components([c] + t, sep) + Components(b, sep)
  {
    if c == sep {
      SepCons(t + b, sep);
      SepCons(t, sep);
    } else if t[0] == sep {
      AppendStepNewComponent(c, t, b, sep);
    } else {
      AppendStepSameComponent(c, t, b, sep);
    }
  }

  /** The step when `c` is a component of its own. */
  lemma AppendStepNewComponent(c: char, t: string, b: string, sep: char)
    requires t != [] && c != sep && t[0] == sep
    requires Components(t + b, sep) == Components(t, sep) + Components(b, sep)
    ensures Components([c] + (t + b), sep) == Components([c] + t, sep) + Components(b, sep)
  {
    NewComponentCons(c, t + b, sep);
    NewComponentCons(c, t, sep);
  }

  /** The step when `c` joins the first component of `t`. */
  lemma AppendStepSameComponent(c: char, t: string, b: string, sep: char)
    requires t != [] && c != sep && t[0] != sep
    requires Components(t + b, sep) == Components(t, sep) + Components(b, sep)
    ensures Components([c] + (t + b), sep) == Components([c] + t, sep) + Components(b, sep)
  {
    var ct := Components(t, sep);
    var cb := Components(b, sep);
    calc {
      Components([c] + (t + b), sep);
    == { assert (t + b)[0] == t[0]; SameComponentCons(c, t + b, sep); }
      PrependChar(c, ct + cb);
    == { ComponentsNonEmpty(t, sep); PrependCharAppend(c, ct, cb); }
      PrependChar(c, ct) + cb;
    == { SameComponentCons(c, t, sep); }
      Components([c] + t, sep) + cb;
    }
  }

  /** Cutting a path at a separator cuts its components there. */
  lemma {:induction false} ComponentsAppend(a: string, b: string, sep: char)
    requires (a != [] && a[|a| - 1] == sep) || b == [] || b[0] == sep
    ensures Components(a + b, sep) == Components(a, sep) + Components(b, sep)
    decreases |a|
  {
    if a == [] {
      assert a + b == b;
      assert Components(a, sep) == [];
    } else {
      var c := a[0];
      var t := a[1..];
      assert a + b == [c] + (t + b);
      assert a == [c] + t;
      if t == [] {
        assert t + b == b;
        ComponentsAppendSingle(c, b, sep);
      } else {
        assert t[|t| - 1] == a[|a| - 1];
        ComponentsAppend(t, b, sep);
        ComponentsAppendStep(c, t, b, sep);
      }
    }
  }

  /** The separators joining the components back together. */
  function JoinComponents(cs: seq<string>, sep: char): string {
    if cs == [] then []
    else if |cs| == 1 then cs[0]
    else cs[0] + [sep] + JoinComponents(cs[1..], sep)
  }

  lemma JoinPrependChar(c: char, cs: seq<string>, sep: char)
    requires cs != []
    ensures JoinComponents(PrependChar(c, cs), sep) == [c] + JoinComponents(cs, sep)
  {
    var p := PrependChar(c, cs);
    if |cs| > 1 {
      assert p[1..] == cs[1..];
    }
  }

  /** A one-character component, a separator and a joined relative path
      join back together. */
  lemma JoinAfterSep(s: string, sep: char)
    requires |s| > 2 && s[0] != sep && s[1] == sep && s[2] != sep
    requires s[2..] == JoinComponents(Components(s[2..], sep), sep)
    ensures s == JoinComponents(Components(s, sep), sep)
  {
    var c := s[0];
    var u := s[2..];
    assert s == [c] + ([sep] + u);
    var cu := Components(u, sep);
    SepCons(u, sep);
    NewComponentCons(c, [sep] + u, sep);
    ComponentsNonEmpty(u, sep);
    var cs := [[c]] + cu;
    assert cs[1..] == cu;
    assert JoinComponents(cs, sep) == [c] + [sep] + u;
  }

  /** A non-separator in front of a joined relative path that starts with a
      non-separator joins into its first component. */
  lemma JoinAfterChar(s: string, sep: char)
    requires |s| > 1 && s[0] != sep && s[1] != sep
    requires s[1..] == JoinComponents(Components(s[1..], sep), sep)
    ensures s == JoinComponents(Components(s, sep), sep)
  {
    var t := s[1..];
    assert s == [s[0]] + t;
    SameComponentCons(s[0], t, sep);
    ComponentsNonEmpty(t, sep);
    JoinPrependChar(s[0], Components(t, sep), sep);
  }

  /** A relative normal path is its components with one separator between
      neighbours. */
  lemma {:induction false} RelativeFromComponents(s: string, sep: char)
    requires NoRepeatedSep(s, sep)
    requires s != [] ==> s[0] != sep && s[|s| - 1] != sep
    ensures s == JoinComponents(Components(s, sep), sep)
    decreases |s|
  {
    if |s| == 1 {
      assert Components(s, sep) == [[s[0]]] + Components([], sep);
      assert s == [s[0]];
    } else if |s| > 1 {
      var t := s[1..];
      NoRepeatedSepTail(s, sep);
      if s[1] == sep {
        assert |s| > 2 && !DoubledAt(s, 2, sep);
        var u := t[1..];
        assert u == s[2..];
        NoRepeatedSepTail(t, sep);
        assert u[0] == s[2] && u[|u| - 1] == s[|s| - 1];
        RelativeFromComponents(u, sep);
        JoinAfterSep(s, sep);
      } else {
        assert t[0] == s[1] && t[|t| - 1] == s[|s| - 1];
        RelativeFromComponents(t, sep);
        JoinAfterChar(s, sep);
      }
    }
  }

  /** A normal path is its components, joined, behind one separator when it
      is absolute. */
  lemma NormalFromComponents(s: string, sep: char)
    requires IsNormal(s, sep)
    ensures s == (if IsAbsolute(s, sep) then [sep] else []) + JoinComponents(Components(s, sep), sep)
  {
    if !IsAbsolute(s, sep) {
      RelativeFromComponents(s, sep);
    } else if s == [sep] {
      ComponentsOfSep(sep);
    } else {
      AbsoluteFromComponents(s, sep);
    }
  }

  /** An absolute normal path other than the root is one separator and a
      relative normal path with the same components. */
  lemma AbsoluteFromComponents(s: string, sep: char)
    requires IsNormal(s, sep) && IsAbsolute(s, sep) && s != [sep]
    ensures s == [sep] + JoinComponents(Components(s, sep), sep)
  {
    var t := s[1..];
    assert !DoubledAt(s, 1, sep);
    NoRepeatedSepTail(s, sep);
    assert t[|t| - 1] == s[|s| - 1];
    RelativeFromComponents(t, sep);
    SepCons(t, sep);
    assert s == [sep] + t;
  }

  /** A normal path is fixed by whether it is absolute and by its
      components: this is what makes the components in the contracts below
      say where every separator goes. */
  lemma NormalFormDetermined(a: string, b: string, sep: char)
    requires IsNormal(a, sep) && IsNormal(b, sep)
    requires IsAbsolute(a, sep) <==> IsAbsolute(b, sep)
    requires Components(a, sep) == Components(b, sep)
    ensures a == b
  {
    NormalFromComponents(a, sep);
    NormalFromComponents(b, sep);
  }

  /** Putting back a first character that does not start a doubled
      separator keeps what collapsing the rest promised. */
  lemma CollapseConsKeeps(s: string, rest: string, sep: char)
    requires |s| > 1 && !(s[0] == sep && s[1] == sep)
    requires NoRepeatedSep(rest, sep)
    requires NonSep(rest, sep) == NonSep(s[1..], sep)
    requires |rest| > 0 && rest[0] == s[1]
    requires NoRepeatedSep(s[1..], sep) ==> rest == s[1..]
    ensures NoRepeatedSep([s[0]] + rest, sep)
    ensures NonSep([s[0]] + rest, sep) == NonSep(s, sep)
    ensures NoRepeatedSep(s, sep) ==> [s[0]] + rest == s
  {
    NonSepCons(s[0], rest, sep);
    NoRepeatedSepAppend([s[0]], rest, sep);
    if NoRepeatedSep(s, sep) {
      NoRepeatedSepTail(s, sep);
      assert s == [s[0]] + s[1..];
    }
  }

  /** Dropping the first of two leading separators keeps what collapsing
      the rest promised. */
  lemma CollapseDropKeeps(s: string, rest: string, sep: char)
    requires |s| > 1 && s[0] == sep && s[1] == sep
    requires NonSep(rest, sep) == NonSep(s[1..], sep)
    ensures NonSep(rest, sep) == NonSep(s, sep)
    ensures !NoRepeatedSep(s, sep)
  {
    assert DoubledAt(s, 1, sep);
  }

  /** Collapses every run of separators to one. */
  function Collapse(s: string, sep: char): string {
    if |s| <= 1 then s
    else if s[0] == sep && s[1] == sep then Collapse(s[1..], sep)
    else [s[0]] + Collapse(s[1..], sep)
  }

  /** Collapsing keeps a path non-empty and keeps its first and last
      character. */
  lemma {:induction false} CollapseEnds(s: string, sep: char)
    ensures |Collapse(s, sep)| == 0 <==> |s| == 0
    ensures |s| > 0 ==> Collapse(s, sep)[0] == s[0]
    ensures |s| > 0 ==> Collapse(s, sep)[|Collapse(s, sep)| - 1] == s[|s| - 1]
  {
    if |s| > 1 {
      var rest := Collapse(s[1..], sep);
      CollapseEnds(s[1..], sep);
      var last := |rest| - 1;
      assert rest[0] == s[1] && rest[last] == s[|s| - 1];
      if !(s[0] == sep && s[1] == sep) {
        var c := [s[0]] + rest;
        assert Collapse(s, sep) == c;
        assert c[|c| - 1] == rest[last];
      }
    }
  }

  /** Collapsing keeps the components: each separator run becomes one
      separator, none disappears and none appears. */
  lemma {:induction false} CollapseKeepsComponents(s: string, sep: char)
    ensures Components(Collapse(s, sep), sep) == Components(s, sep)
    decreases |s|
  {
    if |s| > 1 {
      var rest := Collapse(s[1..], sep);
      CollapseKeepsComponents(s[1..], sep);
      var c := s[0];
      var t := s[1..];
      assert s == [c] + t;
      if c == sep && s[1] == sep {
        SepCons(t, sep);
      } else {
        CollapseEnds(t, sep);
        assert Collapse(s, sep) == [c] + rest && rest != [] && rest[0] == t[0];
        if c == sep {
          SepCons(t, sep);
          SepCons(rest, sep);
        } else if t[0] == sep {
          NewComponentCons(c, t, sep);
          NewComponentCons(c, rest, sep);
        } else {
          SameComponentCons(c, t, sep);
          SameComponentCons(c, rest, sep);
        }
      }
    }
  }

  /** Collapsing leaves no doubled separator, keeps the components (so each
      separator run becomes exactly one separator), keeps the first and last
      character and changes nothing that had no doubled separator. */
  lemma {:induction false} CollapseFacts(s: string, sep: char)
    ensures NoRepeatedSep(Collapse(s, sep), sep)
    ensures NonSep(Collapse(s, sep), sep) == NonSep(s, sep)
    ensures Components(Collapse(s, sep), sep) == Components(s, sep)
    ensures |Collapse(s, sep)| == 0 <==> |s| == 0
    ensures |s| > 0 ==> Collapse(s, sep)[0] == s[0] && Collapse(s, sep)[|Collapse(s, sep)| - 1] == s[|s| - 1]
    ensures NoRepeatedSep(s, sep) ==> Collapse(s, sep) == s
  {
    CollapseEnds(s, sep);
    CollapseKeepsComponents(s, sep);
    if |s| > 1 {
      var rest := Collapse(s[1..], sep);
      CollapseFacts(s[1..], sep);
      if s[0] == sep && s[1] == sep {
        assert Collapse(s, sep) == rest;
        CollapseDropKeeps(s, rest, sep);
      } else {
        assert Collapse(s, sep) == [s[0]] + rest;
        CollapseConsKeeps(s, rest, sep);
      }
    }
  }

  /** `java.io.UnixFileSystem.normalize`: what `new File(s).toString()`
      returns — separator runs collapsed and a trailing separator dropped,
      except that the root path stays the root path. */
  function Normalize(s: string, sep: char): (r: string)
    ensures IsNormal(r, sep)
    ensures NonSep(r, sep) == NonSep(s, sep)
    ensures Components(r, sep) == Components(s, sep)
    ensures |r| == 0 <==> |s| == 0
    ensures IsAbsolute(r, sep) <==> IsAbsolute(s, sep)
    ensures IsNormal(s, sep) ==> r == s
  {
    var c := Collapse(s, sep);
    CollapseFacts(s, sep);
    if |c| > 1 && c[|c| - 1] == sep then
      TrimTrailingSep(c, sep);
      c[..|c| - 1]
    else c
  }

  /** Dropping the trailing separator of a collapsed path longer than the
      root leaves a normalised path with the same non-separator characters
      and the same first character. */
  lemma TrimTrailingSep(c: string, sep: char)
    requires NoRepeatedSep(c, sep) && |c| > 1 && c[|c| - 1] == sep
    ensures IsNormal(c[..|c| - 1], sep)
    ensures NonSep(c[..|c| - 1], sep) == NonSep(c, sep)
    ensures Components(c[..|c| - 1], sep) == Components(c, sep)
    ensures c[..|c| - 1][0] == c[0]
  {
    var t := c[..|c| - 1];
    assert c == t + [sep];
    ComponentsAppend(t, [sep], sep);
    ComponentsOfSep(sep);
    assert Components(t, sep) + [] == Components(t, sep);
    ComponentsDetermineNonSep(t, c, sep);
    forall i | 0 < i < |t|
      ensures !DoubledAt(t, i, sep)
    {
      assert t[i - 1] == c[i - 1] && t[i] == c[i];
      assert !DoubledAt(c, i, sep);
    }
    assert t[|t| - 1] == c[|c| - 2] && !DoubledAt(c, |c| - 1, sep);
  }

  /** Collapsing a path with one more separator at its end. */
  lemma {:induction false} CollapseSnocSep(p: string, sep: char)
    ensures Collapse(p + [sep], sep)
      == if |p| > 0 && p[|p| - 1] == sep then Collapse(p, sep) else Collapse(p, sep) + [sep]
    decreases |p|
  {
    var q := p + [sep];
    if |p| == 0 {
      assert q == [sep];
    } else if |p| == 1 {
      assert q[1..] == [sep];
      if p[0] == sep {
        assert Collapse(q, sep) == Collapse([sep], sep);
      } else {
        assert Collapse(q, sep) == [p[0]] + Collapse([sep], sep);
      }
    } else {
      assert q[0] == p[0] && q[1] == p[1];
      assert q[1..] == p[1..] + [sep];
      var tailLast := p[1..][|p[1..]| - 1];
      assert tailLast == p[|p| - 1];
      CollapseSnocSep(p[1..], sep);
      if p[0] == sep && p[1] == sep {
        assert Collapse(q, sep) == Collapse(p[1..] + [sep], sep);
        assert Collapse(p, sep) == Collapse(p[1..], sep);
      } else {
        assert Collapse(q, sep) == [p[0]] + Collapse(p[1..] + [sep], sep);
        assert Collapse(p, sep) == [p[0]] + Collapse(p[1..], sep);
        if p[|p| - 1] != sep {
          assert [p[0]] + (Collapse(p[1..], sep) + [sep]) == ([p[0]] + Collapse(p[1..], sep)) + [sep];
        }
      }
    }
  }

  /** A trailing separator on a non-empty path makes no difference to its
      normal form: `new File("app/")` and `new File("app")` name the same
      path. */
  lemma NormalizeDropsTrailingSep(p: string, sep: char)
    requires p != []
    ensures Normalize(p + [sep], sep) == Normalize(p, sep)
  {
    CollapseSnocSep(p, sep);
  }

  /** Normalisation is idempotent. */
  lemma NormalizeIdempotent(s: string, sep: char)
    ensures Normalize(Normalize(s, sep), sep) == Normalize(s, sep)
  {
  }

  /** What joining two paths end to end preserves. */
  lemma {:induction false} JoinFacts(a: string, b: string, sep: char)
    requires NoRepeatedSep(a, sep) && NoRepeatedSep(b, sep)
    requires |a| > 0 && |b| > 0 ==> !(a[|a| - 1] == sep && b[0] == sep)
    ensures StartsWith(a + b, a) && EndsWith(a + b, b)
    ensures NonSep(a + b, sep) == NonSep(a, sep) + NonSep(b, sep)
    ensures NoRepeatedSep(a + b, sep)
    ensures |b| > 0 ==> (a + b)[|a + b| - 1] == b[|b| - 1]
    ensures |a| > 0 ==> (a + b)[0] == a[0]
  {
    NonSepAppend(a, b, sep);
    NoRepeatedSepAppend(a, b, sep);
    assert (a + b)[..|a|] == a;
    assert (a + b)[|a + b| - |b|..] == b;
  }

  /** What joining two normalised paths end to end preserves, when no
      doubled separator appears where they meet. */
  lemma {:induction false} JoinNormal(a: string, b: string, sep: char)
    requires IsNormal(a, sep) && IsNormal(b, sep) && |a| > 0 && |b| > 0
    requires !(a[|a| - 1] == sep && b[0] == sep)
    requires b != [sep]
    ensures StartsWith(a + b, a) && EndsWith(a + b, b)
    ensures NonSep(a + b, sep) == NonSep(a, sep) + NonSep(b, sep)
    ensures IsNormal(a + b, sep)
    ensures IsAbsolute(a, sep) ==> IsAbsolute(a + b, sep)
  {
    JoinFacts(a, b, sep);
  }

  /** `UnixFileSystem.resolve(parent, child)` on two normalised paths. */
  function Resolve(parent: string, child: string, sep: char): string
  {
    if child == [] then parent
    else if child[0] == sep then
      if parent == [sep] then child else parent + child
    else if parent == [sep] then parent + child
    else parent + [sep] + child
  }

  /** What `Resolve` promises: the parent stays in front and the child at
      the end, no non-separator character is lost, and the result is
      normalised unless the child is the bare root. */
  predicate ResolvedWell(parent: string, child: string, r: string, sep: char) {
    && (StartsWith(r, parent) || (parent == [sep] && r == child))
    && EndsWith(r, child)
    && NonSep(r, sep) == NonSep(parent, sep) + NonSep(child, sep)
    && (child != [sep] ==> IsNormal(r, sep))
    && (IsAbsolute(parent, sep) ==> IsAbsolute(r, sep))
  }

  lemma {:induction false} ResolveRootParent(child: string, sep: char)
    requires IsNormal(child, sep) && |child| > 0 && child[0] == sep
    ensures ResolvedWell([sep], child, child, sep)
  {
    assert NonSep([sep], sep) == [] + NonSep([], sep);
    assert child[..1] == [sep];
  }

  lemma {:induction false} ResolveAppend(parent: string, child: string, sep: char)
    requires IsNormal(parent, sep) && IsNormal(child, sep) && |parent| > 0
    requires |child| > 0 ==> !(parent[|parent| - 1] == sep && child[0] == sep)
    ensures ResolvedWell(parent, child, parent + child, sep)
  {
    JoinFacts(parent, child, sep);
    if child == [] {
      assert parent + child == parent;
    } else if child != [sep] {
      JoinNormal(parent, child, sep);
    }
  }

  /** Joining with one separator in between loses no non-separator
      character. */
  lemma NonSepJoinWithSep(parent: string, child: string, sep: char)
    ensures NonSep(parent + [sep] + child, sep) == NonSep(parent, sep) + NonSep(child, sep)
  {
    var a := NonSep(parent, sep);
    NonSepAppend(parent, [sep], sep);
    NonSepOfSep(sep);
    assert NonSep(parent + [sep], sep) == a by {
      assert a + [] == a;
    }
    NonSepAppend(parent + [sep], child, sep);
  }

  lemma NonSepOfSep(sep: char)
    ensures NonSep([sep], sep) == []
  {
    assert NonSep([sep], sep) == [] + NonSep([], sep);
  }

  /** Joining two normalised paths, neither with a separator where they
      meet, with one separator in between gives a normalised path. */
  lemma NormalJoinWithSep(parent: string, child: string, sep: char)
    requires IsNormal(parent, sep) && IsNormal(child, sep) && |parent| > 0 && |child| > 0
    requires parent[|parent| - 1] != sep && child[0] != sep
    ensures IsNormal(parent + [sep] + child, sep)
  {
    NoRepeatedSepAppend(parent, [sep], sep);
    NoRepeatedSepAppend(parent + [sep], child, sep);
    var r := parent + [sep] + child;
    assert child[|child| - 1] != sep;
    assert r[|r| - 1] == child[|child| - 1];
  }

  lemma {:induction false} ResolveWithSep(parent: string, child: string, sep: char)
    requires IsNormal(parent, sep) && IsNormal(child, sep) && |parent| > 0 && |child| > 0
    requires parent[|parent| - 1] != sep && child[0] != sep
    ensures ResolvedWell(parent, child, parent + [sep] + child, sep)
  {
    var r := parent + [sep] + child;
    NonSepJoinWithSep(parent, child, sep);
    NormalJoinWithSep(parent, child, sep);
    assert r[..|parent|] == parent;
    assert r[|r| - |child|..] == child;
    assert r[0] == parent[0];
  }

  /** Resolving puts the child's components after the parent's: exactly one
      separator goes between them, whatever the two paths end and start
      with. */
  lemma ResolveComponents(parent: string, child: string, sep: char)
    ensures Components(Resolve(parent, child, sep), sep) == Components(parent, sep) + Components(child, sep)
  {
    ComponentsOfSep(sep);
    if child == [] {
      assert Components(parent, sep) + [] == Components(parent, sep);
    } else if child[0] == sep && parent != [sep] {
      ComponentsAppend(parent, child, sep);
    } else if child[0] != sep && parent == [sep] {
      ComponentsAppend(parent, child, sep);
    } else if child[0] != sep {
      ComponentsAppend(parent + [sep], child, sep);
      ComponentsAppend(parent, [sep], sep);
      assert Components(parent, sep) + [] == Components(parent, sep);
    }
  }

  /** Resolving keeps the parent in front and the child at the end, puts one
      separator between their components, loses no non-separator character
      and yields a normalised path (unless the child is the bare root). */
  lemma {:induction false} ResolveFacts(parent: string, child: string, sep: char)
    requires IsNormal(parent, sep) && IsNormal(child, sep) && |parent| > 0
    ensures ResolvedWell(parent, child, Resolve(parent, child, sep), sep)
    ensures Components(Resolve(parent, child, sep), sep) == Components(parent, sep) + Components(child, sep)
  {
    ResolveComponents(parent, child, sep);
    if child == [] {
      ResolveAppend(parent, child, sep);
    } else if child[0] == sep && parent == [sep] {
      ResolveRootParent(child, sep);
    } else if child[0] == sep {
      ResolveAppend(parent, child, sep);
    } else if parent == [sep] {
      ResolveAppend(parent, child, sep);
    } else {
      ResolveWithSep(parent, child, sep);
    }
  }

  /** `new File(parent, child).getPath()`: an empty parent stands for the
      root, both halves are normalised and then resolved. */
  function Child(parent: string, child: string, sep: char): (r: string)
    ensures |r| > 0
    ensures parent != [] ==> StartsWith(r, Normalize(parent, sep)) || (Normalize(parent, sep) == [sep] && r == Normalize(child, sep))
    ensures EndsWith(r, Normalize(child, sep))
    ensures NonSep(r, sep) == NonSep(parent, sep) + NonSep(child, sep)
    ensures Components(r, sep) == Components(parent, sep) + Components(child, sep)
    ensures Normalize(child, sep) != [sep] ==> IsNormal(r, sep)
    ensures parent == [] || IsAbsolute(parent, sep) ==> IsAbsolute(r, sep)
  {
    var p := if parent == [] then [sep] else Normalize(parent, sep);
    assert NonSep(p, sep) == NonSep(parent, sep) && Components(p, sep) == Components(parent, sep) by {
      if parent == [] {
        NonSepOfSep(sep);
        ComponentsOfSep(sep);
      }
    }
    ResolveFacts(p, Normalize(child, sep), sep);
    Resolve(p, Normalize(child, sep), sep)
  }

  /** `new File(path).getAbsolutePath()` where `cwd` is the `user.dir`
      property: an absolute path is only normalised, a relative one is
      resolved against the working directory. */
  function AbsolutePath(cwd: string, path: string, sep: char): (r: string)
    requires IsNormal(cwd, sep) && IsAbsolute(cwd, sep)
    ensures IsAbsolute(r, sep) && IsNormal(r, sep)
    ensures IsAbsolute(path, sep) ==> r == Normalize(path, sep)
    ensures !IsAbsolute(path, sep) ==> StartsWith(r, cwd) && NonSep(r, sep) == NonSep(cwd, sep) + NonSep(path, sep)
    ensures !IsAbsolute(path, sep) ==> Components(r, sep) == Components(cwd, sep) + Components(path, sep)
  {
    var p := Normalize(path, sep);
    if IsAbsolute(p, sep) then p
    else
      ResolveFacts(cwd, p, sep);
      Resolve(cwd, p, sep)
  }

  /** What every path strictly inside the normal directory `d` starts with:
      `d` and one separator, except that the root already ends in one. */
  function DirPrefix(d: string, sep: char): string {
    if d == [sep] then d else d + [sep]
  }

  /** The path `t` lies strictly inside the directory `d`, judged by the
      path text. `java.io.File` keeps `.` and `..` components, so this
      agrees with containment on disk only when the last component of `d`
      is neither; symbolic links are not considered either. */
  predicate Inside(t: string, d: string, sep: char) {
    t != d && StartsWith(t, DirPrefix(d, sep))
  }

  /** `new File(s).getName()` for a normalised path: the characters after the
      last separator. */
  function Name(s: string, sep: char): string {
    if s == [] || s[|s| - 1] == sep then []
    else Name(s[..|s| - 1], sep) + [s[|s| - 1]]
  }

  /** The name holds no separator. */
  lemma {:induction false} NameNoSep(s: string, sep: char)
    ensures sep !in Name(s, sep)
  {
    if s != [] && s[|s| - 1] != sep {
      NameNoSep(s[..|s| - 1], sep);
    }
  }

  /** The name ends the path, and is preceded by a separator unless it is
      the whole path. */
  lemma {:induction false} NameFacts(s: string, sep: char)
    ensures sep !in Name(s, sep)
    ensures EndsWith(s, Name(s, sep))
    ensures |Name(s, sep)| < |s| ==> s[|s| - |Name(s, sep)| - 1] == sep
  {
    NameNoSep(s, sep);
    if s != [] && s[|s| - 1] != sep {
      var init := s[..|s| - 1];
      var l := s[|s| - 1];
      NameFacts(init, sep);
      var n := Name(init, sep);
      var k := |init| - |n|;
      assert Name(s, sep) == n + [l];
      assert init[k..] == n;
      assert s[k..] == init[k..] + [l];
      if 0 < k {
        assert s[k - 1] == init[k - 1];
      }
    }
  }

  /** Everything up to and including the last separator: the directory a path
      sits in. */
  function ParentPart(s: string, sep: char): (r: string)
    ensures r + Name(s, sep) == s
    ensures r == [] || r[|r| - 1] == sep
  {
    NameFacts(s, sep);
    var r := s[..|s| - |Name(s, sep)|];
    assert r + s[|s| - |Name(s, sep)|..] == s;
    r
  }

  /** The directory a normal absolute path's last component sits in is
      `new File(ParentPart(s))`, and that directory followed by its separator
      is the parent part again. */
  lemma ParentDirPrefix(s: string, sep: char)
    requires IsNormal(s, sep) && IsAbsolute(s, sep)
    ensures |ParentPart(s, sep)| > 0
    ensures DirPrefix(Normalize(ParentPart(s, sep), sep), sep) == ParentPart(s, sep)
  {
    var parent := ParentPart(s, sep);
    assert s == parent + Name(s, sep);
    assert |parent| > 0 by {
      NameNoSep(s, sep);
      assert s[0] in s;
    }
    if parent != [sep] {
      var d := parent[..|parent| - 1];
      assert parent == d + [sep];
      assert d != [] && d[0] == sep;
      assert d != [sep] by {
        assert !DoubledAt(s, 1, sep);
      }
      assert IsNormal(d, sep) by {
        forall i | 0 < i < |d|
          ensures !DoubledAt(d, i, sep)
        {
          assert !DoubledAt(s, i, sep);
        }
        assert !DoubledAt(s, |d|, sep);
      }
      NormalizeDropsTrailingSep(d, sep);
    }
  }

  /** One more non-separator character lengthens the last component. */
  lemma NameSnoc(x: string, c: char, sep: char)
    requires c != sep
    ensures Name(x + [c], sep) == Name(x, sep) + [c]
  {
    assert (x + [c])[..|x|] == x;
  }

  /** Appending separator-free text to a path extends its last component. */
  lemma {:induction false} NameAppendText(s: string, t: string, sep: char)
    requires sep !in t
    ensures Name(s + t, sep) == Name(s, sep) + t
    decreases |t|
  {
    if t == [] {
      assert s + t == s;
    } else {
      var u := t[..|t| - 1];
      var c := t[|t| - 1];
      var x := s + u;
      assert t == u + [c] && c in t;
      assert s + t == x + [c];
      NameSnoc(x, c, sep);
      NameAppendText(s, u, sep);
      assert (Name(s, sep) + u) + [c] == Name(s, sep) + t;
    }
  }

  /** Appending separator-free text to a path extends its last component and
      keeps the directory it sits in. */
  lemma NameAppend(s: string, t: string, sep: char)
    requires sep !in t
    ensures Name(s + t, sep) == Name(s, sep) + t
    ensures ParentPart(s + t, sep) == ParentPart(s, sep)
  {
    NameAppendText(s, t, sep);
    NameFacts(s, sep);
    var st := s + t;
    var k := |s| - |Name(s, sep)|;
    assert |st| - |Name(st, sep)| == k;
    assert st[..k] == s[..k];
  }
}

=== FILE: java_text.dfy ===
/**
  The few pieces of `java.lang.String` behaviour the Modder commands rely on,
  stated over `string` (a `seq<char>`).
 */
module JavaText {

  datatype Option<+T> = None | Some(value: T)

  /** `s.startsWith(prefix)` */
  predicate StartsWith(s: string, prefix: string) {
    |prefix| <= |s| && s[..|prefix|] == prefix
  }

  /** `s.endsWith(suffix)` */
  predicate EndsWith(s: string, suffix: string) {
    |suffix| <= |s| && s[|s| - |suffix|..] == suffix
  }

  /** `s.replace(from, to)` where both arguments are one-character strings:
      every occurrence of `from` is replaced, and nothing else moves. */
  function Replace(s: string, from: char, to: char): (r: string)
    ensures |r| == |s|
    ensures forall i :: 0 <= i < |s| ==> r[i] == (if s[i] == from then to else s[i])
    ensures from != to ==> from !in r
  {
    if s == [] then []
    else [if s[0] == from then to else s[0]] + Replace(s[1..], from, to)
  }

  /** Replacing `from` by a character `to` that did not occur, and then `to`
      back by `from`, gives the original string back. */
  lemma ReplaceUndo(s: string, from: char, to: char)
    requires to !in s
    ensures Replace(Replace(s, from, to), to, from) == s
  {
    var once := Replace(s, from, to);
    var twice := Replace(once, to, from);
    forall i | 0 <= i < |s|
      ensures twice[i] == s[i]
    {
      assert s[i] != to;
    }
  }

  /** A string that starts with `p` is `p` followed by the rest. */
  lemma StartsWithSplit(s: string, p: string)
    requires StartsWith(s, p)
    ensures s == p + s[|p|..]
  {
    assert s == s[..|p|] + s[|p|..];
  }

  /** Two strings that differ at a position `s` has cannot start alike. */
  lemma DifferAt(s: string, p: string, i: nat)
    requires i < |s| && i < |p| && s[i] != p[i]
    ensures !StartsWith(s, p)
  {
    if |p| <= |s| {
      assert s[..|p|][i] == s[i];
    }
  }
}

=== FILE: main_cmd.dfy ===
/**
  The command surface of the Modder tool (`ModderMainCmd`): the pure string
  rules it applies and the order in which it drives its collaborators
  (adb, apktool via `ApkMod`, the `Patcher`, the signer). A collaborator is
  opaque: each call it receives either succeeds or fails. `Patch` ignores
  every return value, so there a failure is an exception that ends the
  command on the spot; `listApk` and `download` stop on an adb status that
  is not `ok`.
 */
module MainCmd {
  import opened JavaText
  import opened JavaFile

  /** What `adb shell pm list packages` puts in front of every package. */
  const PackagePrefix: string := "package:"

  const PatchedExt: string := ".patched"

  /** `Adb.Output`: a status and the lines the adb call printed. */
  datatype AdbError = Ok | Failed
  datatype AdbOutput = AdbOutput(error: AdbError, strings: seq<string>)

  // ---------------------------------------------------------------- listApk

  /** `line.replaceFirst("^package:", "")`: the anchored pattern can only
      match at the very start, and only once. */
  function StripPackagePrefix(line: string): (r: string)
    ensures StartsWith(line, PackagePrefix) ==> PackagePrefix + r == line
    ensures !StartsWith(line, PackagePrefix) ==> r == line
  {
    if StartsWith(line, PackagePrefix) then
      StartsWithSplit(line, PackagePrefix);
      line[|PackagePrefix|..]
    else line
  }

  /** Stripping undoes exactly one leading `package:`, whatever follows it:
      `package:package:x` becomes `package:x`. */
  lemma StripUndoesPrefix(name: string)
    ensures StripPackagePrefix(PackagePrefix + name) == name
  {
    assert (PackagePrefix + name)[..|PackagePrefix|] == PackagePrefix;
    assert (PackagePrefix + name)[|PackagePrefix|..] == name;
  }

  /** What `listApk` shows: the adb error lines, or one numbered row per
      package line followed by the count. */
  datatype ListReport =
    | ShellError(shown: seq<string>)
    | Packages(rows: seq<(nat, string)>, count: nat)

  /** `ListApk`, given the output of `Adb.ListApk()`. */
  method ListApk(out: AdbOutput) returns (report: ListReport)
    ensures report.ShellError? <==> out.error != Ok
    ensures report.ShellError? ==> report.shown == out.strings
    ensures report.Packages? ==> report.count == |out.strings| == |report.rows|
    ensures report.Packages? ==> forall i :: 0 <= i < |report.rows| ==>
      report.rows[i].0 == i && report.rows[i].1 == StripPackagePrefix(out.strings[i])
  {
    if out.error != Ok {
      return ShellError(out.strings);
    }
    var rows: seq<(nat, string)> := [];
    var i := 0;
    while i < |out.strings|
      invariant 0 <= i <= |out.strings|
      invariant |rows| == i
      invariant forall k :: 0 <= k < i ==> rows[k].0 == k && rows[k].1 == StripPackagePrefix(out.strings[k])
    {
      rows := rows + [(i, StripPackagePrefix(out.strings[i]))];
      i := i + 1;
    }
    return Packages(rows, |out.strings|);
  }

  // ------------------------------------------------ decompile / recompile

  /** A call into `ApkMod`: the path handed over as input and the output
      directory. */
  datatype ApkModCall =
    | DecompileCall(src: string, out: string)
    | RecompileCall(src: string, out: string)

  /** `new File(path).toString() + ext`. */
  function OutputDir(path: string, ext: string, sep: char): string {
    Normalize(path, sep) + ext
  }

  /** `Decompile`: the user's path goes to apktool unchanged; the output
      directory is its normal form followed by `ext`, which is
      `ApkMod.DECOMPILED_DIR_EXT`. */
  function Decompile(apkPath: string, ext: string, sep: char): (r: ApkModCall)
    ensures r.DecompileCall? && r.src == apkPath
    ensures r.out == Normalize(apkPath, sep) + ext && EndsWith(r.out, ext)
  {
    var out := OutputDir(apkPath, ext, sep);
    assert out[|out| - |ext|..] == ext;
    DecompileCall(apkPath, out)
  }

  /** `Recompile`, the same rule with `ext` being
      `ApkMod.RECOMPILED_DIR_EXT`. */
  function Recompile(decompiledPath: string, ext: string, sep: char): (r: ApkModCall)
    ensures r.RecompileCall? && r.src == decompiledPath
    ensures r.out == Normalize(decompiledPath, sep) + ext && EndsWith(r.out, ext)
  {
    var out := OutputDir(decompiledPath, ext, sep);
    assert out[|out| - |ext|..] == ext;
    RecompileCall(decompiledPath, out)
  }

  /** The output directory sits next to the input: same parent directory,
      and its name is the input's name with the extension glued on. */
  lemma OutputDirIsSibling(path: string, ext: string, sep: char)
    requires sep !in ext
    ensures ParentPart(OutputDir(path, ext, sep), sep) == ParentPart(Normalize(path, sep), sep)
    ensures Name(OutputDir(path, ext, sep), sep) == Name(Normalize(path, sep), sep) + ext
  {
    NameAppend(Normalize(path, sep), ext, sep);
  }

  /** The reason the command normalises first: a path typed with a trailing
      separator (`app.apk/`) gets the same output directory as without it,
      not a directory named by the extension alone inside the input. */
  lemma DecompileIgnoresTrailingSep(apkPath: string, decompiledExt: string, recompiledExt: string, sep: char)
    requires apkPath != []
    ensures Decompile(apkPath + [sep], decompiledExt, sep).out == Decompile(apkPath, decompiledExt, sep).out
    ensures Recompile(apkPath + [sep], recompiledExt, sep).out == Recompile(apkPath, recompiledExt, sep).out
  {
    NormalizeDropsTrailingSep(apkPath, sep);
  }

  /** The output directory lies inside the input directory exactly when the
      input is the root: `/` gives `/` followed by the extension, any other
      path a sibling. */
  lemma OutputDirInsideInputOnlyAtRoot(path: string, ext: string, sep: char)
    requires |ext| > 0 && sep !in ext
    ensures Inside(OutputDir(path, ext, sep), Normalize(path, sep), sep) <==> Normalize(path, sep) == [sep]
  {
    var n := Normalize(path, sep);
    var o := OutputDir(path, ext, sep);
    assert o[|n|] == ext[0] && ext[0] in ext;
    if n == [sep] {
      assert o[..1] == [sep];
    } else {
      DifferAt(o, n + [sep], |n|);
    }
  }
  /** `Inside` compares path text. An input whose last component is `.` or
      `..` names a directory that holds the output on disk: an absolute one
      puts the output inside the directory holding that component, which is
      the input itself for `.` and inside it for `..`. */
  lemma DotInputHoldsOutput(path: string, ext: string, sep: char)
    requires IsAbsolute(path, sep) && sep !in ext
    requires Name(Normalize(path, sep), sep) == "." || Name(Normalize(path, sep), sep) == ".."
    ensures Inside(OutputDir(path, ext, sep), Normalize(ParentPart(Normalize(path, sep), sep), sep), sep)
  {
    var n := Normalize(path, sep);
    ParentDirPrefix(n, sep);
    var parent := ParentPart(n, sep);
    var o := OutputDir(path, ext, sep);
    assert o[..|parent|] == n[..|parent|] == parent;
    assert |o| > |parent| by {
      assert n == parent + Name(n, sep);
    }
  }

  /** `decompile .`: the output directory is the bare name `.` followed by
      the extension, an entry of the working directory that `.` names. */
  lemma DecompileDotIsBareName(ext: string, sep: char)
    requires sep != '.' && sep !in ext
    ensures Decompile(".", ext, sep).out == "." + ext
    ensures sep !in Decompile(".", ext, sep).out
  {
    assert IsNormal(".", sep);
  }


  // ------------------------------------------------------------------ patch

  /** One collaborator call made by `Patch`, with the path it works on. */
  datatype Step =
    | CheckDirectory(path: string)
    | CopyDirectory(from: string, to: string)
    | CheckFile(path: string)
    | OpenPatcher(apk: string)
    | AddMemScanner(apk: string)
    | RemoveExtractNativeLibs(apk: string)
    | Export(apk: string, dest: string)
    | Sign(path: string)

  /** The calls a run made, in order, and whether the last one failed. */
  datatype Run = Run(trace: seq<Step>, failed: bool)

  /** Running a plan of calls where `fails` is the set of calls that throw:
      each call is made in turn and the first failure ends the run. */
  function RunFailFast(plan: seq<Step>, fails: set<Step>): (r: Run)
    ensures |r.trace| <= |plan| && r.trace == plan[..|r.trace|]
    ensures !r.failed ==> r.trace == plan && forall i :: 0 <= i < |plan| ==> plan[i] !in fails
    ensures r.failed ==> |r.trace| > 0 && r.trace[|r.trace| - 1] in fails
    ensures forall i :: 0 <= i < |r.trace| - 1 ==> r.trace[i] !in fails
  {
    if plan == [] then Run([], false)
    else if plan[0] in fails then Run([plan[0]], true)
    else
      var rest := RunFailFast(plan[1..], fails);
      RunConsKeeps(plan, fails, rest);
      Run([plan[0]] + rest.trace, rest.failed)
  }

  /** A call that succeeds, followed by a run of the rest of the plan, is a
      run of the whole plan. */
  lemma RunConsKeeps(plan: seq<Step>, fails: set<Step>, rest: Run)
    requires plan != [] && plan[0] !in fails
    requires |rest.trace| <= |plan| - 1 && rest.trace == plan[1..][..|rest.trace|]
    requires !rest.failed ==> rest.trace == plan[1..] && forall i :: 0 <= i < |plan| - 1 ==> plan[1..][i] !in fails
    requires rest.failed ==> |rest.trace| > 0 && rest.trace[|rest.trace| - 1] in fails
    requires forall i :: 0 <= i < |rest.trace| - 1 ==> rest.trace[i] !in fails
    ensures var t := [plan[0]] + rest.trace;
      && |t| <= |plan| && t == plan[..|t|]
      && (!rest.failed ==> t == plan && forall i :: 0 <= i < |plan| ==> plan[i] !in fails)
      && (rest.failed ==> t[|t| - 1] in fails)
      && forall i :: 0 <= i < |t| - 1 ==> t[i] !in fails
  {
    var t := [plan[0]] + rest.trace;
    assert t == plan[..|t|];
    forall i | 0 <= i < |t| - 1
      ensures t[i] !in fails
    {
      if i > 0 {
        assert t[i] == rest.trace[i - 1];
      }
    }
    if !rest.failed {
      assert plan == [plan[0]] + plan[1..];
      forall i | 0 < i < |plan|
        ensures plan[i] !in fails
      {
        assert plan[i] == plan[1..][i - 1];
      }
    }
  }

  /** One `ApkSigner.Sign` call per regular file of the listing, in listing
      order; directories and other entries are skipped. */
  function SignSteps(listing: seq<Entry>): (r: seq<Step>)
    ensures forall s :: s in r ==> s.Sign?
    ensures forall p :: Sign(p) in r <==> exists e :: e in listing && e.kind == RegularFile && e.absPath == p
  {
    if listing == [] then []
    else
      var rest := SignSteps(listing[1..]);
      assert forall e :: e in listing <==> e == listing[0] || e in listing[1..];
      if listing[0].kind == RegularFile then [Sign(listing[0].absPath)] + rest else rest
  }

  /** The working copy: `new File(absSrc + ".patched")`, where `absSrc` is
      the source directory's absolute path. */
  function PatchedDir(absSrc: string, sep: char): string {
    Normalize(absSrc + PatchedExt, sep)
  }

  /** Every call `Patch` would make if none failed: `srcDir` is the source
      directory as given, `copy` the working copy, `apk` the base apk inside
      it, and `listing` what `listFiles()` returns for the working copy once
      the export is done. */
  function PatchPlan(srcDir: string, copy: string, apk: string, listing: seq<Entry>): seq<Step> {
    PatchSteps(srcDir, copy, apk) + SignSteps(listing)
  }

  /** The seven calls before the signing loop. */
  function PatchSteps(srcDir: string, copy: string, apk: string): (r: seq<Step>)
    ensures |r| == 7 && forall s :: s in r ==> !s.Sign?
  {
    [ CheckDirectory(srcDir),
      CopyDirectory(srcDir, copy),
      CheckFile(apk),
      OpenPatcher(apk),
      AddMemScanner(apk),
      RemoveExtractNativeLibs(apk),
      Export(apk, apk) ]
  }

  /** What `Patch` did, and the path it reports as exported when it got to
      the end. */
  datatype PatchReport = PatchReport(trace: seq<Step>, exported: Option<string>)

  /** The entries the signing loop walks over; on a `null` listing it
      throws before the first one. */
  function EntriesOf(listing: Option<seq<Entry>>): seq<Entry> {
    if listing.Some? then listing.value else []
  }

  /** `Patch`: copy the apk directory, patch its base apk in place, export
      over the same file and sign every file of the copy. `cwd` is the
      `user.dir` property, `baseName` is `Patcher.BASE_APK_FILE_NAME` and
      `listing` is what `listFiles()` returns for the copy after the export,
      `None` standing for `null`, on which the loop throws. */
  function Patch(cwd: string, src: string, baseName: string, listing: Option<seq<Entry>>, fails: set<Step>, sep: char): (r: PatchReport)
    requires IsNormal(cwd, sep) && IsAbsolute(cwd, sep)
    ensures r.exported.Some? <==> listing.Some? && forall s :: s in r.trace ==> s !in fails
    ensures listing.None? ==> forall s :: s in r.trace ==> !s.Sign?
    ensures |r.trace| > 0 && r.trace[0] == CheckDirectory(Normalize(src, sep))
    ensures var copy := PatchedDir(AbsolutePath(cwd, src, sep), sep);
      var apk := Child(copy, baseName, sep);
      r.exported.Some? ==>
        && r.exported.value == apk
        && r.trace == PatchSteps(Normalize(src, sep), copy, apk) + SignSteps(listing.value)
    ensures var copy := PatchedDir(AbsolutePath(cwd, src, sep), sep);
      var apk := Child(copy, baseName, sep);
      listing.None? && (forall s :: s in r.trace ==> s !in fails) ==>
        r.trace == PatchSteps(Normalize(src, sep), copy, apk)
  {
    var copy := PatchedDir(AbsolutePath(cwd, src, sep), sep);
    var apk := Child(copy, baseName, sep);
    var plan := PatchPlan(Normalize(src, sep), copy, apk, EntriesOf(listing));
    var run := RunFailFast(plan, fails);
    assert run.trace != [] ==> run.trace[0] == plan[0];
    assert listing.None? ==> forall s :: s in run.trace ==> !s.Sign? by {
      if listing.None? {
        EmptyListingSignsNothing(Normalize(src, sep), copy, apk, fails);
      }
    }
    PatchReport(run.trace, if run.failed || listing.None? then None else Some(apk))
  }

  /** With no entries to walk over, a run of the plan signs nothing. */
  lemma EmptyListingSignsNothing(srcDir: string, copy: string, apk: string, fails: set<Step>)
    ensures forall s :: s in RunFailFast(PatchPlan(srcDir, copy, apk, []), fails).trace ==> !s.Sign?
  {
    var head := PatchSteps(srcDir, copy, apk);
    var plan := PatchPlan(srcDir, copy, apk, []);
    assert plan == head + [];
    var trace := RunFailFast(plan, fails).trace;
    forall j | 0 <= j < |trace|
      ensures !trace[j].Sign?
    {
      assert trace[j] == head[j] && head[j] in head;
    }
  }

  /** The target a call writes to or inspects. */
  function Target(s: Step): string {
    match s
    case CheckDirectory(p) => p
    case CopyDirectory(_, to) => to
    case CheckFile(p) => p
    case OpenPatcher(p) => p
    case AddMemScanner(p) => p
    case RemoveExtractNativeLibs(p) => p
    case Export(_, dest) => dest
    case Sign(p) => p
  }

  /** By path text, the working copy sits next to the source directory:
      the source is not inside it, and it is inside the source only when
      the source is the root (then `/.patched` is inside `/`, and the copy
      would copy into itself). `DotSourceHoldsCopy` gives the other case
      where it lands inside the source on disk. */
  lemma PatchedDirIsSeparate(absSrc: string, sep: char)
    requires IsNormal(absSrc, sep) && IsAbsolute(absSrc, sep)
    requires sep !in PatchedExt
    ensures PatchedDir(absSrc, sep) == absSrc + PatchedExt
    ensures IsNormal(PatchedDir(absSrc, sep), sep) && IsAbsolute(PatchedDir(absSrc, sep), sep)
    ensures Inside(PatchedDir(absSrc, sep), absSrc, sep) <==> absSrc == [sep]
    ensures !StartsWith(absSrc, PatchedDir(absSrc, sep))
  {
    var d := absSrc + PatchedExt;
    JoinFacts(absSrc, PatchedExt, sep);
    assert d[|d| - 1] == PatchedExt[|PatchedExt| - 1] && d[|d| - 1] in PatchedExt;
    assert IsNormal(d, sep);
    assert d[|absSrc|] == '.';
    if absSrc == [sep] {
      assert d[..1] == [sep];
    } else {
      DifferAt(d, absSrc + [sep], |absSrc|);
    }
  }

  /** `Inside` compares path text, and `java.io.File` keeps `.` and `..`
      components. When the source's last component is one of them —
      `Patch .` run from `/home/u` gives `/home/u/.` — the copy lands inside
      the directory that holds that component: for `.` that directory is
      the source itself, for `..` it lies inside the source. So on disk the
      copy is written inside the source directory. */
  lemma DotSourceHoldsCopy(absSrc: string, sep: char)
    requires IsNormal(absSrc, sep) && IsAbsolute(absSrc, sep)
    requires sep !in PatchedExt
    requires Name(absSrc, sep) == "." || Name(absSrc, sep) == ".."
    ensures Inside(PatchedDir(absSrc, sep), Normalize(ParentPart(absSrc, sep), sep), sep)
  {
    PatchedDirIsSeparate(absSrc, sep);
    ParentDirPrefix(absSrc, sep);
    var parent := ParentPart(absSrc, sep);
    var copy := absSrc + PatchedExt;
    assert copy[..|parent|] == absSrc[..|parent|] == parent;
  }

  /** The base apk, for a plain relative file name, is inside the copy. */
  lemma BaseApkInsideCopy(copy: string, baseName: string, sep: char)
    requires IsNormal(copy, sep) && IsAbsolute(copy, sep) && copy != [sep]
    requires baseName != [] && sep !in baseName
    ensures Inside(Child(copy, baseName, sep), copy, sep)
  {
    assert Normalize(baseName, sep) == baseName by {
      assert baseName[|baseName| - 1] in baseName;
    }
    assert baseName[0] in baseName;
    var apk := copy + [sep] + baseName;
    assert Child(copy, baseName, sep) == apk;
    assert apk[..|copy| + 1] == copy + [sep];
  }

  /** Past its first two calls, the plan only names paths under `under`,
      given that the apk and every listed entry are there. */
  lemma PlanStaysUnder(srcDir: string, copy: string, apk: string, listing: seq<Entry>, under: string)
    requires StartsWith(apk, under)
    requires forall e :: e in listing ==> StartsWith(e.absPath, under)
    ensures var plan := PatchPlan(srcDir, copy, apk, listing);
      forall i :: 2 <= i < |plan| ==> StartsWith(Target(plan[i]), under)
  {
    var plan := PatchPlan(srcDir, copy, apk, listing);
    var signs := SignSteps(listing);
    forall i | 2 <= i < |plan|
      ensures StartsWith(Target(plan[i]), under)
    {
      if i >= 7 {
        assert plan[i] == signs[i - 7];
        assert plan[i] in signs;
        var e :| e in listing && e.kind == RegularFile && e.absPath == plan[i].path;
      }
    }
  }

  /** A path under `absSrc + ".patched/"` is inside the copy, is not the
      source directory, and is not inside it unless the source is the
      root. */
  lemma UnderCopyNotUnderSource(t: string, absSrc: string, sep: char)
    requires sep != '.'
    requires StartsWith(t, absSrc + PatchedExt + [sep])
    ensures Inside(t, absSrc + PatchedExt, sep)
    ensures t != absSrc && (absSrc != [sep] ==> !Inside(t, absSrc, sep))
  {
    assert t[..|absSrc|] == absSrc;
    assert t[|absSrc|] == (absSrc + PatchedExt + [sep])[|absSrc|] == '.';
    assert DirPrefix(absSrc + PatchedExt, sep) == absSrc + PatchedExt + [sep];
    DifferAt(t, absSrc + [sep], |absSrc|);
  }

  /** The plan with abstract paths: past its first two calls every target
      is inside the copy and, unless the source is the root, outside the
      source, once the copy is the source's `.patched` sibling and the apk
      and listing are inside it. */
  lemma PlanTouchesOnlyCopy(srcDir: string, absSrc: string, apk: string, listing: seq<Entry>, fails: set<Step>, sep: char)
    requires sep != '.'
    requires StartsWith(apk, absSrc + PatchedExt + [sep])
    requires forall e :: e in listing ==> StartsWith(e.absPath, absSrc + PatchedExt + [sep])
    ensures var trace := RunFailFast(PatchPlan(srcDir, absSrc + PatchedExt, apk, listing), fails).trace;
      forall i :: 2 <= i < |trace| ==>
        && Inside(Target(trace[i]), absSrc + PatchedExt, sep)
        && Target(trace[i]) != absSrc
        && (absSrc != [sep] ==> !Inside(Target(trace[i]), absSrc, sep))
  {
    var under := absSrc + PatchedExt + [sep];
    var plan := PatchPlan(srcDir, absSrc + PatchedExt, apk, listing);
    PlanStaysUnder(srcDir, absSrc + PatchedExt, apk, listing, under);
    var trace := RunFailFast(plan, fails).trace;
    forall i | 2 <= i < |trace|
      ensures Inside(Target(trace[i]), absSrc + PatchedExt, sep)
      ensures Target(trace[i]) != absSrc && (absSrc != [sep] ==> !Inside(Target(trace[i]), absSrc, sep))
    {
      assert trace[i] == plan[i];
      UnderCopyNotUnderSource(Target(trace[i]), absSrc, sep);
    }
  }

  /** After the copy, every call of `Patch` works on a path inside the
      working copy, and, judged by path text, none touches the source
      directory or, unless the source is the root, anything inside it —
      provided the base apk name is a plain relative name and the listing is
      the copy's own. */
  lemma PatchTouchesOnlyCopy(cwd: string, src: string, baseName: string, listing: Option<seq<Entry>>, fails: set<Step>, sep: char)
    requires IsNormal(cwd, sep) && IsAbsolute(cwd, sep)
    requires sep !in PatchedExt
    requires baseName != [] && sep !in baseName
    requires forall e :: e in EntriesOf(listing) ==>
      Inside(e.absPath, PatchedDir(AbsolutePath(cwd, src, sep), sep), sep)
    ensures var absSrc := AbsolutePath(cwd, src, sep);
      var trace := Patch(cwd, src, baseName, listing, fails, sep).trace;
      forall i :: 2 <= i < |trace| ==>
        && Inside(Target(trace[i]), PatchedDir(absSrc, sep), sep)
        && Target(trace[i]) != absSrc
        && (absSrc != [sep] ==> !Inside(Target(trace[i]), absSrc, sep))
  {
    var absSrc := AbsolutePath(cwd, src, sep);
    PatchedDirIsSeparate(absSrc, sep);
    var copy := PatchedDir(absSrc, sep);
    assert copy != [sep] by {
      assert |copy| > 1;
    }
    assert DirPrefix(copy, sep) == copy + [sep];
    var apk := Child(copy, baseName, sep);
    BaseApkInsideCopy(copy, baseName, sep);
    assert '.' in PatchedExt;
    var entries := EntriesOf(listing);
    var plan := PatchPlan(Normalize(src, sep), absSrc + PatchedExt, apk, entries);
    var trace := Patch(cwd, src, baseName, listing, fails, sep).trace;
    assert trace == RunFailFast(plan, fails).trace;
    PlanTouchesOnlyCopy(Normalize(src, sep), absSrc, apk, entries, fails, sep);
    forall i | 2 <= i < |trace|
      ensures Inside(Target(trace[i]), copy, sep)
      ensures Target(trace[i]) != absSrc && (absSrc != [sep] ==> !Inside(Target(trace[i]), absSrc, sep))
    {
      assert trace[i] == RunFailFast(plan, fails).trace[i];
    }
  }

  /** In a trace, every occurrence of `later` comes after an occurrence of
      `earlier`. */
  predicate Precedes(trace: seq<Step>, earlier: Step, later: Step) {
    forall j :: 0 <= j < |trace| && trace[j] == later ==>
      exists i :: 0 <= i < j && trace[i] == earlier
  }

  /** A run stops early but never reorders: if every occurrence of `b` in
      the plan sits after position `ia`, where `a` is, then in the trace `b`
      only comes after `a`. */
  lemma PrecedesInRun(plan: seq<Step>, t: seq<Step>, a: Step, b: Step, ia: nat)
    requires |t| <= |plan| && t == plan[..|t|]
    requires ia < |plan| && plan[ia] == a
    requires forall j :: 0 <= j < |plan| && plan[j] == b ==> ia < j
    ensures Precedes(t, a, b)
  {
    forall j | 0 <= j < |t| && t[j] == b
      ensures exists i :: 0 <= i < j && t[i] == a
    {
      assert plan[j] == t[j];
      assert t[ia] == plan[ia];
    }
  }

  /** The fixed shape of the plan: seven calls, then only signing; each
      patch call has one place in it. */
  lemma PlanShape(srcDir: string, copy: string, apk: string, listing: seq<Entry>)
    ensures var plan := PatchPlan(srcDir, copy, apk, listing);
      && |plan| >= 7
      && plan[1] == CopyDirectory(srcDir, copy)
      && plan[4] == AddMemScanner(apk)
      && plan[5] == RemoveExtractNativeLibs(apk)
      && plan[6] == Export(apk, apk)
      && (forall j :: 0 <= j < |plan| && plan[j].AddMemScanner? ==> j == 4)
      && (forall j :: 0 <= j < |plan| && plan[j].RemoveExtractNativeLibs? ==> j == 5)
      && (forall j :: 0 <= j < |plan| && plan[j].Export? ==> j == 6)
      && (forall j :: 0 <= j < |plan| && plan[j].Sign? ==> j >= 7)
      && (forall j :: 7 <= j < |plan| ==> plan[j].Sign?)
  {
    var plan := PatchPlan(srcDir, copy, apk, listing);
    var signs := SignSteps(listing);
    forall j | 7 <= j < |plan|
      ensures plan[j].Sign?
    {
      assert plan[j] == signs[j - 7] && signs[j - 7] in signs;
    }
  }

  /** Running the plan: the copy comes before the patches, which run in a
      fixed order — memory scanner, native-library option, export. */
  lemma PlanPatchOrder(srcDir: string, copy: string, apk: string, listing: seq<Entry>, fails: set<Step>)
    ensures var t := RunFailFast(PatchPlan(srcDir, copy, apk, listing), fails).trace;
      && Precedes(t, CopyDirectory(srcDir, copy), AddMemScanner(apk))
      && Precedes(t, AddMemScanner(apk), RemoveExtractNativeLibs(apk))
      && Precedes(t, RemoveExtractNativeLibs(apk), Export(apk, apk))
  {
    var plan := PatchPlan(srcDir, copy, apk, listing);
    var t := RunFailFast(plan, fails).trace;
    PlanShape(srcDir, copy, apk, listing);
    PrecedesInRun(plan, t, CopyDirectory(srcDir, copy), AddMemScanner(apk), 1);
    PrecedesInRun(plan, t, AddMemScanner(apk), RemoveExtractNativeLibs(apk), 4);
    PrecedesInRun(plan, t, RemoveExtractNativeLibs(apk), Export(apk, apk), 5);
  }

  /** Running the plan: the export comes before any signing. */
  lemma PlanSignsAfterExport(srcDir: string, copy: string, apk: string, listing: seq<Entry>, fails: set<Step>)
    ensures var t := RunFailFast(PatchPlan(srcDir, copy, apk, listing), fails).trace;
      forall p :: Precedes(t, Export(apk, apk), Sign(p))
  {
    var plan := PatchPlan(srcDir, copy, apk, listing);
    var t := RunFailFast(plan, fails).trace;
    PlanShape(srcDir, copy, apk, listing);
    forall p
      ensures Precedes(t, Export(apk, apk), Sign(p))
    {
      PrecedesInRun(plan, t, Export(apk, apk), Sign(p), 6);
    }
  }

  /** A plan run that gets to the end has signed exactly the regular files
      of the listing. */
  lemma PlanSignsRegularFiles(srcDir: string, copy: string, apk: string, listing: seq<Entry>, fails: set<Step>)
    requires !RunFailFast(PatchPlan(srcDir, copy, apk, listing), fails).failed
    ensures forall p :: (Sign(p) in RunFailFast(PatchPlan(srcDir, copy, apk, listing), fails).trace
      <==> exists e :: e in listing && e.kind == RegularFile && e.absPath == p)
  {
    var head := PatchSteps(srcDir, copy, apk);
    var signs := SignSteps(listing);
    assert PatchPlan(srcDir, copy, apk, listing) == head + signs;
    forall p
      ensures Sign(p) !in head
    {
    }
  }

  /** `Patch` runs its patches in the fixed order of the plan and signs only
      after the export; a run that reports the export made all three patch
      calls on the copy's base apk. */
  lemma PatchOrder(cwd: string, src: string, baseName: string, listing: Option<seq<Entry>>, fails: set<Step>, sep: char)
    requires IsNormal(cwd, sep) && IsAbsolute(cwd, sep)
    ensures var apk := Child(PatchedDir(AbsolutePath(cwd, src, sep), sep), baseName, sep);
      var t := Patch(cwd, src, baseName, listing, fails, sep).trace;
      && Precedes(t, AddMemScanner(apk), RemoveExtractNativeLibs(apk))
      && Precedes(t, RemoveExtractNativeLibs(apk), Export(apk, apk))
      && (forall p :: Precedes(t, Export(apk, apk), Sign(p)))
    ensures var apk := Child(PatchedDir(AbsolutePath(cwd, src, sep), sep), baseName, sep);
      var r := Patch(cwd, src, baseName, listing, fails, sep);
      r.exported.Some? ==>
        && AddMemScanner(apk) in r.trace
        && RemoveExtractNativeLibs(apk) in r.trace
        && Export(apk, apk) in r.trace
  {
    var copy := PatchedDir(AbsolutePath(cwd, src, sep), sep);
    var apk := Child(copy, baseName, sep);
    PlanPatchOrder(Normalize(src, sep), copy, apk, EntriesOf(listing), fails);
    PlanSignsAfterExport(Normalize(src, sep), copy, apk, EntriesOf(listing), fails);
  }

  /** A `Patch` run that exports has signed exactly the regular files of the
      working copy's listing. */
  lemma PatchSignsRegularFiles(cwd: string, src: string, baseName: string, listing: Option<seq<Entry>>, fails: set<Step>, sep: char)
    requires IsNormal(cwd, sep) && IsAbsolute(cwd, sep)
    ensures var r := Patch(cwd, src, baseName, listing, fails, sep);
      r.exported.Some? ==> listing.Some? && forall p :: (Sign(p) in r.trace
        <==> exists e :: e in listing.value && e.kind == RegularFile && e.absPath == p)
  {
    var copy := PatchedDir(AbsolutePath(cwd, src, sep), sep);
    var apk := Child(copy, baseName, sep);
    var plan := PatchPlan(Normalize(src, sep), copy, apk, EntriesOf(listing));
    if !RunFailFast(plan, fails).failed {
      PlanSignsRegularFiles(Normalize(src, sep), copy, apk, EntriesOf(listing), fails);
    }
  }

  // --------------------------------------------------------------- download

  /** One adb call made by `Download`. */
  datatype DownloadStep =
    | ListPackages
    | QueryApkPaths(package: string)
    | Fetch(devicePath: string, localDir: string)

  /** How `Download` ended and which adb lines it showed. `pulled` holds
      the lines each successful pull printed, one entry per pull in order;
      `shown` the lines printed when the command stopped on an error. */
  datatype DownloadOutcome =
    | Downloaded(pulled: seq<seq<string>>)
    | ListFailed(shown: seq<string>)
    | NotInstalled
    | QueryFailed(shown: seq<string>)
    | FetchFailed(devicePath: string, pulled: seq<seq<string>>, shown: seq<string>)

  /** The device as the adb calls see it: the package listing, the apk
      paths reported for a package, and the result of pulling a path. */
  datatype Device = Device(
    packages: AdbOutput,
    apkPaths: string -> AdbOutput,
    fetch: string -> AdbOutput)

  datatype DownloadRun = DownloadRun(trace: seq<DownloadStep>, outcome: DownloadOutcome)

  /** The pulls of a split apk from path `k` on, the lines each successful
      pull printed, and the index of the pull that failed, if one did. */
  datatype FetchRun = FetchRun(trace: seq<DownloadStep>, pulled: seq<seq<string>>, stoppedAt: Option<nat>)

  /** Pulls `paths[k..]` in order into `dir`, stopping at the first failure. */
  function FetchFrom(paths: seq<string>, k: nat, dir: string, fetch: string -> AdbOutput): (r: FetchRun)
    requires k <= |paths|
    ensures |r.trace| <= |paths| - k
    ensures forall i :: 0 <= i < |r.trace| ==> r.trace[i] == Fetch(paths[k + i], dir)
    ensures r.stoppedAt.None? ==> |r.trace| == |paths| - k
    ensures r.stoppedAt.None? ==> forall i :: k <= i < |paths| ==> fetch(paths[i]).error == Ok
    ensures r.stoppedAt.Some? ==> r.stoppedAt.value == k + |r.trace| - 1 < |paths|
    ensures r.stoppedAt.Some? ==> fetch(paths[r.stoppedAt.value]).error != Ok
    ensures r.stoppedAt.Some? ==> forall i :: k <= i < r.stoppedAt.value ==> fetch(paths[i]).error == Ok
    ensures r.stoppedAt.None? ==> |r.pulled| == |r.trace|
    ensures r.stoppedAt.Some? ==> |r.pulled| == |r.trace| - 1
    ensures forall i :: 0 <= i < |r.pulled| ==> r.pulled[i] == fetch(paths[k + i]).strings
    decreases |paths| - k
  {
    if k == |paths| then FetchRun([], [], None)
    else if fetch(paths[k]).error != Ok then FetchRun([Fetch(paths[k], dir)], [], Some(k))
    else
      var rest := FetchFrom(paths, k + 1, dir, fetch);
      FetchRun([Fetch(paths[k], dir)] + rest.trace, [fetch(paths[k]).strings] + rest.pulled, rest.stoppedAt)
  }

  /** The package `name` appears in the listing as `listApk` shows it, i.e.
      with the `package:` prefix stripped. */
  predicate Listed(name: string, lines: seq<string>) {
    exists line :: line in lines && StripPackagePrefix(line) == name
  }

  /** `Download` after the download directory is set up, with the two
      corrections described in the findings: membership is tested against
      the stripped package names, and a failed pull shows the pull's own
      output. The target directory is the package name. */
  function Download(name: string, dev: Device): (r: DownloadRun)
    ensures |r.trace| > 0 && r.trace[0] == ListPackages
    ensures r.outcome.ListFailed? <==> dev.packages.error != Ok
    ensures r.outcome.NotInstalled? <==> dev.packages.error == Ok && !Listed(name, dev.packages.strings)
    ensures r.outcome.ListFailed? ==> r.outcome.shown == dev.packages.strings
    ensures r.outcome.ListFailed? || r.outcome.NotInstalled? ==> r.trace == [ListPackages]
    ensures r.outcome.QueryFailed? <==>
      dev.packages.error == Ok && Listed(name, dev.packages.strings) && dev.apkPaths(name).error != Ok
    ensures r.outcome.QueryFailed? ==>
      r.trace == [ListPackages, QueryApkPaths(name)] && r.outcome.shown == dev.apkPaths(name).strings
    ensures |r.trace| > 1 ==> r.trace[1] == QueryApkPaths(name)
    ensures forall i :: 2 <= i < |r.trace| ==>
      i - 2 < |dev.apkPaths(name).strings| && r.trace[i] == Fetch(dev.apkPaths(name).strings[i - 2], name)
    ensures r.outcome.Downloaded? ==> (
      && |r.trace| == 2 + |dev.apkPaths(name).strings|
      && (forall p :: p in dev.apkPaths(name).strings ==> dev.fetch(p).error == Ok)
      && |r.outcome.pulled| == |dev.apkPaths(name).strings|
      && forall i :: 0 <= i < |r.outcome.pulled| ==>
        r.outcome.pulled[i] == dev.fetch(dev.apkPaths(name).strings[i]).strings)
    ensures r.outcome.FetchFailed? ==> (
      && |r.trace| > 2
      && |r.trace| - 3 < |dev.apkPaths(name).strings|
      && r.outcome.devicePath == dev.apkPaths(name).strings[|r.trace| - 3]
      && dev.fetch(r.outcome.devicePath).error != Ok
      && r.outcome.shown == dev.fetch(r.outcome.devicePath).strings
      && (forall i :: 0 <= i < |r.trace| - 3 ==> dev.fetch(dev.apkPaths(name).strings[i]).error == Ok)
      && |r.outcome.pulled| == |r.trace| - 3
      && forall i :: 0 <= i < |r.outcome.pulled| ==>
        r.outcome.pulled[i] == dev.fetch(dev.apkPaths(name).strings[i]).strings)
  {
    var listing := dev.packages;
    if listing.error != Ok then DownloadRun([ListPackages], ListFailed(listing.strings))
    else if !Listed(name, listing.strings) then DownloadRun([ListPackages], NotInstalled)
    else
      var paths := dev.apkPaths(name);
      if paths.error != Ok then DownloadRun([ListPackages, QueryApkPaths(name)], QueryFailed(paths.strings))
      else
        var f := FetchFrom(paths.strings, 0, name, dev.fetch);
        var outcome := match f.stoppedAt
          case None => Downloaded(f.pulled)
          case Some(i) => FetchFailed(paths.strings[i], f.pulled, dev.fetch(paths.strings[i]).strings);
        DownloadRun([ListPackages, QueryApkPaths(name)] + f.trace, outcome)
  }

  /** `Download` exactly as written: `out.strings.contains(package_name)` on
      the raw listing lines, and `ShowAdbShellError(out)` — the path query's
      output — when a pull fails. */
  function DownloadAsWritten(name: string, dev: Device): (r: DownloadRun)
    ensures |r.trace| > 0 && r.trace[0] == ListPackages
    ensures r.outcome.ListFailed? <==> dev.packages.error != Ok
    ensures r.outcome.NotInstalled? <==> dev.packages.error == Ok && name !in dev.packages.strings
    ensures r.outcome.ListFailed? ==> r.outcome.shown == dev.packages.strings
    ensures r.outcome.ListFailed? || r.outcome.NotInstalled? ==> r.trace == [ListPackages]
    ensures r.outcome.QueryFailed? <==>
      dev.packages.error == Ok && name in dev.packages.strings && dev.apkPaths(name).error != Ok
    ensures r.outcome.QueryFailed? ==>
      r.trace == [ListPackages, QueryApkPaths(name)] && r.outcome.shown == dev.apkPaths(name).strings
    ensures |r.trace| > 1 ==> r.trace[1] == QueryApkPaths(name)
    ensures forall i :: 2 <= i < |r.trace| ==>
      i - 2 < |dev.apkPaths(name).strings| && r.trace[i] == Fetch(dev.apkPaths(name).strings[i - 2], name)
    ensures r.outcome.Downloaded? ==> (
      && |r.trace| == 2 + |dev.apkPaths(name).strings|
      && (forall p :: p in dev.apkPaths(name).strings ==> dev.fetch(p).error == Ok)
      && |r.outcome.pulled| == |dev.apkPaths(name).strings|
      && forall i :: 0 <= i < |r.outcome.pulled| ==>
        r.outcome.pulled[i] == dev.fetch(dev.apkPaths(name).strings[i]).strings)
    ensures r.outcome.FetchFailed? ==> (
      && |r.trace| > 2
      && |r.trace| - 3 < |dev.apkPaths(name).strings|
      && r.outcome.devicePath == dev.apkPaths(name).strings[|r.trace| - 3]
      && dev.fetch(r.outcome.devicePath).error != Ok
      && r.outcome.shown == dev.apkPaths(name).strings
      && (forall i :: 0 <= i < |r.trace| - 3 ==> dev.fetch(dev.apkPaths(name).strings[i]).error == Ok)
      && |r.outcome.pulled| == |r.trace| - 3
      && forall i :: 0 <= i < |r.outcome.pulled| ==>
        r.outcome.pulled[i] == dev.fetch(dev.apkPaths(name).strings[i]).strings)
  {
    var listing := dev.packages;
    if listing.error != Ok then DownloadRun([ListPackages], ListFailed(listing.strings))
    else if name !in listing.strings then DownloadRun([ListPackages], NotInstalled)
    else
      var paths := dev.apkPaths(name);
      if paths.error != Ok then DownloadRun([ListPackages, QueryApkPaths(name)], QueryFailed(paths.strings))
      else
        var f := FetchFrom(paths.strings, 0, name, dev.fetch);
        var outcome := match f.stoppedAt
          case None => Downloaded(f.pulled)
          case Some(i) => FetchFailed(paths.strings[i], f.pulled, paths.strings);
        DownloadRun([ListPackages, QueryApkPaths(name)] + f.trace, outcome)
  }

  /** A download that stops before the pulls pulls nothing. */
  lemma DownloadAbortsWithoutFetch(name: string, dev: Device)
    requires !Download(name, dev).outcome.Downloaded? && !Download(name, dev).outcome.FetchFailed?
    ensures forall s :: s in Download(name, dev).trace ==> !s.Fetch?
  {
  }

  /** With the adb listing in its usual form — every line `package:<name>` —
      the code as written never finds a package given by its name: it
      reports it as not installed. */
  lemma DownloadAsWrittenRejectsListedName(name: string, dev: Device)
    requires dev.packages.error == Ok
    requires forall line :: line in dev.packages.strings ==> StartsWith(line, PackagePrefix)
    requires !StartsWith(name, PackagePrefix)
    ensures DownloadAsWritten(name, dev).outcome == NotInstalled
  {
  }

  /** The corrected check accepts every package the listing shows. */
  lemma DownloadFindsListedPackage(name: string, dev: Device)
    requires dev.packages.error == Ok
    requires PackagePrefix + name in dev.packages.strings
    ensures !Download(name, dev).outcome.NotInstalled? && !Download(name, dev).outcome.ListFailed?
    ensures Download(name, dev).trace[..2] == [ListPackages, QueryApkPaths(name)]
  {
    StripUndoesPrefix(name);
  }

  /** The concrete case: `com.example.app` is on the device and has one apk
      that pulls fine. As written, the command says it is not installed; the
      corrected command downloads it. */
  lemma DownloadListedPackageExample()
    ensures var dev := Device(
        AdbOutput(Ok, ["package:com.example.app"]),
        _ => AdbOutput(Ok, ["/data/app/com.example.app/base.apk"]),
        _ => AdbOutput(Ok, []));
      && DownloadAsWritten("com.example.app", dev).outcome == NotInstalled
      && Download("com.example.app", dev).outcome == Downloaded([[]])
  {
    var dev := Device(
      AdbOutput(Ok, ["package:com.example.app"]),
      _ => AdbOutput(Ok, ["/data/app/com.example.app/base.apk"]),
      _ => AdbOutput(Ok, []));
    assert StartsWith("package:com.example.app", PackagePrefix);
    assert StripPackagePrefix("package:com.example.app") == "com.example.app";
    assert Listed("com.example.app", dev.packages.strings);
    DifferAt("com.example.app", PackagePrefix, 0);
  }

  /** The concrete case: a pull fails with an adb error message; as written
      the command prints the list of apk paths instead of that message. */
  lemma DownloadAsWrittenShowsQueryOutput()
    ensures var dev := Device(
        AdbOutput(Ok, ["com.example.app"]),
        _ => AdbOutput(Ok, ["/data/app/base.apk"]),
        _ => AdbOutput(Failed, ["adb: error: device offline"]));
      && DownloadAsWritten("com.example.app", dev).outcome
        == FetchFailed("/data/app/base.apk", [], ["/data/app/base.apk"])
      && Download("com.example.app", dev).outcome
        == FetchFailed("/data/app/base.apk", [], ["adb: error: device offline"])
  {
    var dev := Device(
      AdbOutput(Ok, ["com.example.app"]),
      _ => AdbOutput(Ok, ["/data/app/base.apk"]),
      _ => AdbOutput(Failed, ["adb: error: device offline"]));
    DifferAt("com.example.app", PackagePrefix, 0);
    assert StripPackagePrefix("com.example.app") == "com.example.app";
    assert Listed("com.example.app", dev.packages.strings);
  }
}
